=== FILE: README.md ===
# Logistics front end: the data transforms of its pages

This project models the small, pure data transforms inside the React pages of
a parcel and shipment tracking front end. It also proves what they compute.

- **Shipment list** (`Shipments.jsx`): the `reduce` that groups the flat
  joined rows of `/all-shipment` into one group per `ShipmentID`, and the
  status chip's label and colour.
- **Parcel list** (`Parcels.jsx`): the status update applied to the loaded
  list, the search filter, pagination, and the rows-per-page change.
- **Reports** (`Reports.jsx`): the status and date-range filter, and the
  statistics over what passes it.
- **Shipment details** (`ShipmentDetails.jsx`): that page's own label and
  colour lookups, and the selection of the first record of the response.
- **Status list component** (`Parcel.js`): coercion of a JSON body into a
  list, and the error state every failure ends in.
- **Regions** (`Regions.jsx`): `handleCreateShipment`, with its guard, the
  request it builds, the timestamp formatting, and the state after the
  server answers.

JavaScript values are one datatype, `JsValues.JsValue`, with these cases:
undefined, null, booleans, integral numbers, NaN, strings, arrays and objects.
The language operations the pages use are defined on it once:

- truthiness;
- `===`, where an array or object is never `===` to anything, itself included (see "## Left out");
- `||` and `String(v)`;
- property reads, including `length` and array indices;
- `typeof v === 'object'`, object spread and `parseInt(v, 10)`.

A thrown exception is the `Err` case of a `Result`. An HTTP call is a parameter
holding what it settled to. So are `new Date(..)` and `toISOString()`.

Module layout:

- `results.dfy`: `Option` and `Result`.
- `decimal.dfy`: number text and `parseInt`.
- `js_values.dfy`: the value model.
- `text.dfy`: `toLowerCase` and `includes`.
- `sequences.dfy`: `filter`, `slice` and sums.
- `status_list.dfy`: the shared `find` over the status table.
- One module per page, as listed above.

## Model

| member | source | states |
|---|---|---|
| ShipmentsPage.GroupShipments | frontend/src/pages/Shipments.jsx:47-49 | a response body that is not an array has no `reduce`, so grouping throws |
| ShipmentsPage.GroupRowsIsReference | frontend/src/pages/Shipments.jsx:49-72 | the fold equals an independent description: one group per key, holding the header of the key's first row and the parcels of all its rows in order. It throws exactly when some row is null or undefined, or its key names an inherited `Object.prototype` property |
| ShipmentsPage.AddRowExtendsReference | frontend/src/pages/Shipments.jsx:50-71 | one reducer call on the grouping of a prefix gives the grouping of the prefix extended by one row |
| ShipmentsPage.PushExtendsReference | frontend/src/pages/Shipments.jsx:50-70 | creating the header when absent and then appending the row's parcel yields the longer sequence's grouping |
| ShipmentsPage.PushedGroup | frontend/src/pages/Shipments.jsx:50-70 | key by key, the group after the push is the reference group of the longer sequence |
| ShipmentsPage.GroupOfEarlierKey | frontend/src/pages/Shipments.jsx:59-70 | an existing group is kept; it gains the new parcel exactly when the row bears its key |
| ShipmentsPage.GroupOfNewKey | frontend/src/pages/Shipments.jsx:50-58 | a key seen for the first time gets the new row's header and a single parcel |
| ShipmentsPage.OneGroupPerShipment | frontend/src/pages/Shipments.jsx:49-58 | the reduce succeeds iff every row is groupable, and then its keys are exactly the distinct ShipmentIDs as text |
| ShipmentsPage.HeaderFromFirstRow | frontend/src/pages/Shipments.jsx:50-58 | ShipmentID, Departure_time, Estimated_time and Status of a group come from the first row with its key; later rows never overwrite them |
| ShipmentsPage.ParcelsInRowOrder | frontend/src/pages/Shipments.jsx:59-70 | a group's parcels are the projections of the rows with its key, in input order |
| ShipmentsPage.NoEmptyGroup | frontend/src/pages/Shipments.jsx:50-71 | every group has at least one parcel |
| ShipmentsPage.DistinctKeys | frontend/src/pages/Shipments.jsx:49-75 | the listed keys are duplicate-free and are exactly the keys among the rows |
| ShipmentsPage.DistinctKeysInFirstAppearanceOrder | frontend/src/pages/Shipments.jsx:49-58 | the keys are listed in the order in which their shipments first appear among the rows, the order in which the reduce creates the groups |
| ShipmentsPage.ParcelCountsSumToRows | frontend/src/pages/Shipments.jsx:50-75 | the parcel counts of all groups add up to the number of rows |
| ShipmentsPage.StatusText | frontend/src/pages/Shipments.jsx:93-97 | a falsy or unmatched status gives the pending text; otherwise the AltName of the first entry whose StatusID is `===` the status |
| ShipmentsPage.StatusColor | frontend/src/pages/Shipments.jsx:100-119 | each of the six names maps to its colour; a falsy value or any other value maps to 'default' |
| ShipmentsPage.PendingChipIsDefault | frontend/src/pages/Shipments.jsx:93-119 | a falsy or unknown status gets the pending label, and that label's colour is 'default' |
| StatusList.FindStatus | frontend/src/pages/Shipments.jsx:95 | `find` returns some entry iff some StatusID is `===` the status, and then it returns the first such entry |
| StatusList.FirstMatchUnique | frontend/src/pages/ShipmentDetails.jsx:194 | any first match is the entry `find` returns |
| ParcelsPage.ApplyStatus | frontend/src/pages/Parcels.jsx:66-70 | the map succeeds iff no parcel is null or undefined. It keeps the length; a parcel whose ParcelID is `===` the target becomes itself with the new Status, and every other parcel is kept as is |
| ParcelsPage.ChangeStatus | frontend/src/pages/Parcels.jsx:62-75 | the handler maps the list its closure captured. A failed request, or a captured list the map throws on, sets the error and leaves the state's list alone. A success replaces the state's list with the mapped captured list. Page, rows per page and search term never change |
| ParcelsPage.StaleUpdateDiscardsState | frontend/src/pages/Parcels.jsx:66-70 | after a successful request the new list depends only on the captured list, not on the state's list when the request settles |
| ParcelsPage.OverlappingUpdatesLoseTheFirst | frontend/src/pages/Parcels.jsx:62-70 | two status changes picked from the same rendered list: after both succeed, the first parcel's new Status is lost |
| ParcelsPage.ChangeStatusOnLatest | frontend/src/pages/Parcels.jsx:62-75 | the corrected handler maps the state's list at the time the request settles. Otherwise it behaves as the handler as written |
| ParcelsPage.StatusKeepsParcelId | frontend/src/pages/Parcels.jsx:66-70 | `{ ...parcel, Status }` has the new Status and keeps the parcel's ParcelID |
| ParcelsPage.SuccessiveUpdatesBothApply | frontend/src/pages/Parcels.jsx:62-70 | with the corrected handler two successful updates both take effect. The later one wins on parcels both target; the earlier one's Status stays on parcels only it targets; other parcels are untouched |
| ParcelsPage.StatusUpdateTouchesOnlyTarget | frontend/src/pages/Parcels.jsx:62-75 | after a successful update of the latest list the error is unchanged and the length is kept. Targets get the new Status, keep all their other properties and gain no others; all other parcels are untouched |
| ParcelsPage.FilterParcels | frontend/src/pages/Parcels.jsx:78-92 | a state that is not an array gives the empty list; otherwise it throws iff an element is null or undefined. The result is an order-preserving subsequence. It holds exactly the parcels for which one of the searched texts contains the term, both lower-cased, and each with as many copies as the list has. Its length is the number of positions whose parcel matches |
| ParcelsPage.AbsentColumnText | frontend/src/pages/Parcels.jsx:82-89 | a missing property reads as "undefined" in a plain column and as empty text in a column defaulted with `\|\| ''` |
| ParcelsPage.EmptyTermKeepsAll | frontend/src/pages/Parcels.jsx:79-91 | an empty search term keeps every parcel, in order |
| ParcelsPage.LegionTypoMatchesEverything | frontend/src/pages/Parcels.jsx:85 | every parcel without a Legion property matches any term that occurs in "undefined" |
| ParcelsPage.LegionTypoExample | frontend/src/pages/Parcels.jsx:85 | a parcel with no column containing "fin" is kept by a search for "fin" |
| ParcelsPage.AbsentRegionNeverMatches | frontend/src/pages/Parcels.jsx:82-90 | with Region in place of Legion, a parcel without Region is not kept by a non-empty term that no other column contains |
| ParcelsPage.CorrectedSearchRejectsExample | frontend/src/pages/Parcels.jsx:82-90 | the corrected search does not keep the example parcel for "fin" |
| ParcelsPage.TotalPages | frontend/src/pages/Parcels.jsx:95 | the page count is the least count of pages of rowsPerPage rows that holds all n rows |
| ParcelsPage.PageIsWindow | frontend/src/pages/Parcels.jsx:98-101 | a page is the window from page*rowsPerPage of length rowsPerPage, cut at the list's end, with at most rowsPerPage rows |
| ParcelsPage.PagesUpToIsPrefix | frontend/src/pages/Parcels.jsx:98-101 | the first count pages, concatenated, are the list's prefix of count*rowsPerPage rows |
| ParcelsPage.PagesReassemble | frontend/src/pages/Parcels.jsx:95-101 | pages 0 to totalPages-1, concatenated, give back the filtered list |
| ParcelsPage.ChangeRowsPerPage | frontend/src/pages/Parcels.jsx:107-110 | the page goes back to 0 and rows per page becomes a number or NaN; nothing else changes |
| ParcelsPage.MenuChoiceSetsRowsPerPage | frontend/src/pages/Parcels.jsx:107-110 | choosing 5, 10, 25 or 50, as a number or as its text, sets exactly that many rows per page |
| ReportsPage.FilterShipments | frontend/src/pages/Reports.jsx:56-66 | the result is an order-preserving subsequence. It holds exactly the shipments that pass both the status and the date test, each with as many copies as the input has. Its length is the number of positions whose shipment passes |
| ReportsPage.StatusSelection | frontend/src/pages/Reports.jsx:57 | 'all' admits every status; any other selection admits exactly the shipments whose Status is `===` to it |
| ReportsPage.BoundsAreInclusive | frontend/src/pages/Reports.jsx:58-63 | for valid dates each bound is optional and inclusive: start <= departure <= end |
| ReportsPage.InvalidDateFailsBounds | frontend/src/pages/Reports.jsx:58-63 | an invalid departure date passes the date test only when both bounds are empty |
| ReportsPage.NoFilterKeepsAll | frontend/src/pages/Reports.jsx:57-65 | with 'all' and both bounds empty nothing is filtered out |
| ReportsPage.TotalsOverAllParcels | frontend/src/pages/Reports.jsx:71-73 | the two reduces count and sum exactly the parcels of all shipments |
| ReportsPage.ComputeStatistics | frontend/src/pages/Reports.jsx:69-78 | the shipment count is the filtered count; the parcel count and weight total range over all their parcels. The average is 0 with no shipment, NaN when there are shipments but no parcels, and otherwise total weight over parcel count |
| ReportsPage.Report | frontend/src/pages/Reports.jsx:56-78 | the shipment count is the number of positions whose shipment passes both tests, so never more than the number of shipments. Parcel count and weight total range over all parcels of the shipments that pass. The average is 0 with no such shipment, NaN with shipments but no parcels, and otherwise total weight over parcel count |
| ReportsPage.AverageWithinBounds | frontend/src/pages/Reports.jsx:74-77 | when every parcel weighs between lo and hi, so does the average |
| ShipmentDetailsPage.DetailsStatusText | frontend/src/pages/ShipmentDetails.jsx:192-196 | a falsy status gives the in-progress text without consulting the list; otherwise the StatusName of the first `===` match, or the same text when nothing matches |
| ShipmentDetailsPage.NameColor | frontend/src/pages/ShipmentDetails.jsx:204-215 | each of the four names maps to its colour and any other value to 'default' |
| ShipmentDetailsPage.DetailsStatusColor | frontend/src/pages/ShipmentDetails.jsx:199-216 | 'default' for a falsy or unmatched status; otherwise the colour of the matched entry's StatusName |
| ShipmentDetailsPage.ColourFollowsLabel | frontend/src/pages/ShipmentDetails.jsx:192-216 | the chip colour is always the colour of the chip's label |
| ShipmentDetailsPage.FetchDetails | frontend/src/pages/ShipmentDetails.jsx:142-161 | loading always ends. A failed request gives the load error. A body without records gives "not found" and changes nothing else. A body with records stores its element 0 |
| ShipmentDetailsPage.LengthTextComparesAsNumber | frontend/src/pages/ShipmentDetails.jsx:144 | in `length > 0`, a `length` that is the text of an integer n, or the array [n], exceeds 0 exactly when n does, as a number `length` would |
| Decimal.IntegerTextExceedsZero | frontend/src/pages/ShipmentDetails.jsx:144 | the decimal text of an integer converts to a number above 0 exactly when the integer is above 0 |
| ShipmentDetailsPage.FirstRecordSelected | frontend/src/pages/ShipmentDetails.jsx:145-151 | a non-empty array selects element 0, copies its Departure_time and Estimated_arrival into the edit fields, and leaves the error as it was |
| ShipmentDetailsPage.EmptyResultNotFound | frontend/src/pages/ShipmentDetails.jsx:145-154 | an empty array sets the not-found error, and the shown shipment and edit fields stay as they were |
| StatusFeed.Normalize | frontend/src/components/Parcel.js:18-20 | an array body is kept. An object with an array `data` gives that array, any other object a one-element list, and a string, number or boolean the empty list. A null or undefined body throws |
| StatusFeed.NormalizeFailsOnlyOnNull | frontend/src/components/Parcel.js:18-20 | the coercion throws iff the body is null or undefined |
| StatusFeed.LoadFeed | frontend/src/components/Parcel.js:9-29 | loading always ends. A rejected fetch, a response that is not ok, a body that is not JSON and a throwing coercion each set their own error and keep the list; a successful coercion stores the list. The list changes only after an ok JSON response |
| StatusFeed.ErrorMessage | frontend/src/components/Parcel.js:11-12 | the component fixes the message text only for a response that is not ok, and then it is "Network response was not ok" |
| StatusFeed.LoadEndsInOneOfTwoStates | frontend/src/components/Parcel.js:8-29 | from the initial state, loading ends and the error is absent iff the request succeeded at every stage. Success stores the coerced list; a failure at any stage leaves an error and no statuses |
| StatusFeed.NullBodyIsAnError | frontend/src/components/Parcel.js:19-28 | a JSON null body ends in the error state with no statuses and loading cleared |
| RegionsPage.ReplaceFirst | frontend/src/pages/Regions.jsx:83-84 | `replace` with a one-character pattern keeps the length and changes only the first occurrence, if there is one |
| RegionsPage.FormatTimestamp | frontend/src/pages/Regions.jsx:83-84 | the formatted text has at most 19 characters |
| RegionsPage.FormatIsoTimestamp | frontend/src/pages/Regions.jsx:83-84 | for an ISO string, the text is its first 19 characters with index 10 turned into a space |
| RegionsPage.ParcelIds | frontend/src/pages/Regions.jsx:81 | the map succeeds iff the parcels are an array without null or undefined elements, and then lists their ParcelIDs one for one, in order |
| RegionsPage.RefusalMessage | frontend/src/pages/Regions.jsx:101 | the message is always truthy: the server's message when it is truthy; the fixed default in every other case: no response data, response data that is null or undefined, or a `message` that is absent or falsy |
| RegionsPage.CreateShipment | frontend/src/pages/Regions.jsx:74-102 | an empty time sets the missing-times error and sends nothing. An unsent request changes only the error. A sent request carries the parcels' IDs, both formatted times, the totals and status 1 |
| RegionsPage.RequestListsEveryParcel | frontend/src/pages/Regions.jsx:81-93 | with both times, loaded parcels and valid dates the request is sent, with the ParcelIDs one for one and status 1 |
| RegionsPage.OutcomeOfSentRequest | frontend/src/pages/Regions.jsx:95-101 | on success the dialog closes, both times are cleared and the success message is set. On refusal only the error changes, to the server's message when it has a truthy one and to the fixed default otherwise |
| JsValues.StrictEqualsCharacterized | frontend/src/pages/Shipments.jsx:95 | `===` holds exactly between equal primitives other than NaN, and is symmetric |
| JsValues.ParseIntRoundTrip | frontend/src/pages/Parcels.jsx:108 | `parseInt(v, 10)` gives back an integral number, and the number written as decimal text |
| JsValues.PropOfIndex | frontend/src/pages/ShipmentDetails.jsx:146 | reading the property named by the decimal text of i on an array gives element i |
| Decimal.ParseIntOfDecimal | frontend/src/pages/Parcels.jsx:108 | `parseInt` reads back the decimal text of any integer, whatever non-digit text follows |
| Text.Includes | frontend/src/pages/Parcels.jsx:82-90 | `includes` holds iff some window of the text spells the needle |
| Text.ToLower | frontend/src/pages/Parcels.jsx:79-90 | `toLowerCase` keeps the length and maps each character on its own: A to Z become a to z, every other character is kept (the A-to-Z-only folding is listed under "## Left out") |
| JsValues.Spread | frontend/src/pages/Parcels.jsx:68 | `{ ...v }` copies an object's own properties; an array or string gives its elements or characters under their decimal index keys; any other value gives no properties. For an array or a string the keys are exactly the canonical decimal texts of the indices below its length, so no key lies past the end |
| JsValues.SpreadKeyIsIndex | frontend/src/pages/Parcels.jsx:68 | every key of the spread of an array or a string is the decimal text of an index below its length |
| JsValues.ParseInt | frontend/src/pages/Parcels.jsx:108 | `parseInt(v, 10)` is a number or NaN, and NaN exactly when no digit follows the leading white space and optional sign of `String(v)` |
| Sequences.Slice | frontend/src/pages/Parcels.jsx:98-101 | `slice(start, end)` resolves both positions (negative counts from the end, clamped to the length) and returns the elements from the start up to the end, in order; nothing when the end is not past the start |
| Sequences.Filter | frontend/src/pages/Reports.jsx:56 | `filter` returns an order-preserving subsequence. It holds exactly the elements that pass the test, each with as many copies as the input has, and its length is the number of positions that pass |

## Left out

- The backend (`backend/server.js`), the HTTP wrappers (`frontend/src/api/index.js`), the map widget code, routing, rendering and the CSV upload page. They are I/O or browser plumbing with no data logic to model.
- HTTP calls: each is a parameter giving what the call settled to. Only the branches taken on the outcome are modelled.
- `new Date(..)` and `toISOString()`: parameters of `ReportsPage.DateMatches` and `RegionsPage.CreateShipment`. Time zones and date parsing are not modelled.
- Floating point: the model assumes every number the pages handle is an integer, plus NaN; the rows' schemas come from backend handlers that are not part of this model, and Regions.jsx:61 reads weights with `parseFloat`. Weights are summed as integers, and the average is a real quotient rather than an IEEE double. `-0` is not distinguished.
- Text.ToLower: `toLowerCase` is modelled on A to Z only: letters outside A to Z, such as accented Latin or Greek capitals, are not folded. Thai has no case.
- Strings are sequences of code points, not UTF-16 code units, so `length`, `slice` and index reads treat a character outside the BMP as one unit.
- JsValues.ParseIntRoundTrip: holds for every integer because integers are unbounded here. In JavaScript `String(n)` switches to exponent form from 10^21 on (`parseInt(1e21, 10)` is 1), and integers above 2^53 are rounded; the round trip is faithful only up to 2^53 in magnitude.
- Decimal.ParseIntOfDecimal: reads back every integer exactly, because integers are unbounded here. JavaScript rounds the value read from more than 2^53 to a double (`parseInt("9007199254740993")` is 9007199254740992), and `JsValues.ToString` has no exponent form from 10^21 on.
- `parseInt` skips only the white space listed in `Decimal.IsLeadingSpace`. Other Unicode space separators, a radix other than 10, and the `0x` prefix are not modelled.
- `String(v)` of an array element that is itself an object or array follows the one-level rules of `JsValues.ToString`. Cyclic values cannot arise from JSON.
- `Object.values` ordering in Shipments.jsx:75 is not modelled: JavaScript puts integer-like keys first in numeric order. The grouping is a map. `ShipmentsPage.DistinctKeysInFirstAppearanceOrder` gives the insertion order, which is the display order when no key is integer-like.
- Shipments.jsx:77-82, the page's error and loading state around the grouping, is not modelled beyond `GroupShipments` returning `Err`.
- Reports.jsx:52 calls an undefined `fetchStatusList`, and Reports.jsx:122 uses `TextField` without importing it. Only the filter and statistics expressions are modelled. A shipment lacking a `parcels` array is not modelled: `ReportShipment` carries the parcels' weights.
- `StatusList.StatusEntry` and `ReportsPage.ReportShipment` are typed records rather than arbitrary JSON objects. A status row that is not an object (`s.StatusID` on null throws) is not modelled.
- ParcelsPage.TotalPages: defined only for a positive number of rows per page. A NaN or 0 from `parseInt` is not modelled there; the menu only offers 5, 10, 25 and 50.
- `JsValues.StrictEquals`: an array or object is never `===`, not even to itself, because the model has no reference identity. Parcels.jsx:184 passes the row's own `parcel.ParcelID` to the handler, so an object- or array-valued ParcelID would match its own row in JavaScript but matches no row here. The model assumes ParcelIDs are numbers; the backend handlers that produce the parcel rows are not part of this model.
- ParcelsPage.ChangeStatusOnLatest: a captured list the map throws on still ends in the handler's error banner. With an updater function React runs the map outside the handler's `try`, so in JavaScript that throw would not reach the `catch`; the model does not describe what React does with it.
- The filter keeps the search as written, with the Legion column, and `ParcelsPage.ChangeStatus` maps the captured list as written. The corrected search and the corrected update are stated separately under Findings.
- ShipmentDetailsPage.FetchDetails: a `length` that is a string or an array is compared through its text, but only integer texts with optional white space and a `+` sign are read. Fractional, exponent, hexadecimal and "Infinity" texts, such as "0.5" or "1e3", count as not positive, although they exceed 0 in JavaScript. JSON arrays and strings, whose `length` is a number, are modelled exactly.
- The texts of the engine's own errors (a failed fetch, bad JSON, a TypeError) are not modelled, only which error occurred.

## Findings

| source | as written | input that shows it | evidently intended | confidence | as-written member | corrected member |
|---|---|---|---|---|---|---|
| frontend/src/pages/Parcels.jsx:85 | the search reads `parcel.Legion`. No other line of the front end reads or writes a `Legion` property, so for a parcel without one `String(undefined)` is searched: the text "undefined" | a search for "fin" keeps a parcel `{ParcelID: 7, Weight: 120, Province: "ภูเก็ต"}` although none of its columns contains "fin" | search the `Region` column, empty when absent | not executed | ParcelsPage.LegionTypoExample | ParcelsPage.CorrectedSearchRejectsExample |
| frontend/src/pages/Parcels.jsx:66 | the handler maps `parcels` as its closure saw it when the status was picked, not the list in the state when the request settles | pick status 3 for parcel 1 and then status 4 for parcel 2 before the first request settles: once both succeed, parcel 1 shows its old status again | `setParcels(prev => prev.map(...))`, so each update applies to the latest list | not executed | ParcelsPage.OverlappingUpdatesLoseTheFirst | ParcelsPage.SuccessiveUpdatesBothApply |

=== FILE: decimal.dfy ===
/**
 * Decimal digit text: the conversion JavaScript applies to an integral
 * number below 10^21 in magnitude when it becomes a string (`String(7)`, a
 * template literal, a property key), and the reading `parseInt(text, 10)`
 * performs. Integers are unbounded here: the exponent form JavaScript uses
 * from 10^21 on and the rounding of doubles above 2^53 are not modelled.
 */
module Decimal {
  import opened Results

  predicate IsDigit(c: char) {
    '0' <= c <= '9'
  }

  predicate AllDigits(s: string) {
    forall i :: 0 <= i < |s| ==> IsDigit(s[i])
  }

  function DigitChar(d: nat): (c: char)
    requires d < 10
    ensures IsDigit(c)
  {
    ('0' as int + d) as char
  }

  function DigitValue(c: char): (d: nat)
    requires IsDigit(c)
    ensures d < 10 && DigitChar(d) == c
  {
    c as int - '0' as int
  }

  /** The text of a non-negative integer: no sign, no leading zero except for 0 itself. */
  function NatToDecimal(n: nat): (s: string)
    ensures Canonical(s)
    ensures n < 10 <==> |s| == 1
    decreases n
  {
    if n < 10 then [DigitChar(n)] else NatToDecimal(n / 10) + [DigitChar(n % 10)]
  }

  /** The text of any integer, with a leading '-' when negative. */
  function IntToDecimal(n: int): (s: string)
    ensures |s| > 0
    ensures n < 0 <==> s[0] == '-'
  {
    if n < 0 then "-" + NatToDecimal(-n) else NatToDecimal(n)
  }

  /** Exactly the texts `NatToDecimal` produces. */
  predicate Canonical(s: string) {
    |s| > 0 && AllDigits(s) && (s[0] == '0' ==> |s| == 1)
  }

  /** The value of a digit string, read most significant digit first. */
  function DigitsValue(s: string): nat
    requires AllDigits(s)
  {
    if |s| == 0 then 0 else DigitsValue(s[..|s| - 1]) * 10 + DigitValue(s[|s| - 1])
  }

  /** Reading back the text of n gives n. */
  lemma {:induction false} DigitsValueOfDecimal(n: nat)
    ensures DigitsValue(NatToDecimal(n)) == n
    decreases n
  {
    if n >= 10 {
      var s := NatToDecimal(n);
      assert s[..|s| - 1] == NatToDecimal(n / 10);
      DigitsValueOfDecimal(n / 10);
    }
  }

  /** A digit string that does not start with '0' has a positive value. */
  lemma {:induction false} LeadingDigitPositive(s: string)
    requires |s| > 0 && AllDigits(s) && s[0] != '0'
    ensures DigitsValue(s) >= 1
    decreases |s|
  {
    if |s| > 1 {
      LeadingDigitPositive(s[..|s| - 1]);
    }
  }

  /** Writing out the value of a canonical text gives the text back. */
  lemma {:induction false} DecimalOfDigitsValue(s: string)
    requires Canonical(s)
    ensures NatToDecimal(DigitsValue(s)) == s
    decreases |s|
  {
    if |s| > 1 {
      var p := s[..|s| - 1];
      var last := s[|s| - 1];
      assert p[0] == s[0];
      LeadingDigitPositive(p);
      DecimalOfDigitsValue(p);
      var q := DigitsValue(p);
      var d := DigitValue(last);
      assert DigitsValue(s) == q * 10 + d;
      assert DigitsValue(s) / 10 == q && DigitsValue(s) % 10 == d;
      assert NatToDecimal(DigitsValue(s)) == NatToDecimal(q) + [DigitChar(d)];
      assert s == p + [last];
    }
  }

  /** Distinct numbers have distinct texts. */
  lemma NatToDecimalInjective(m: nat, n: nat)
    ensures NatToDecimal(m) == NatToDecimal(n) <==> m == n
  {
    DigitsValueOfDecimal(m);
    DigitsValueOfDecimal(n);
  }

  /** s without the white space at its end. */
  function DropTrailingSpace(s: string): (t: string)
    ensures t <= s
    ensures |t| > 0 ==> !IsLeadingSpace(t[|t| - 1])
    ensures forall i :: |t| <= i < |s| ==> IsLeadingSpace(s[i])
  {
    if |s| > 0 && IsLeadingSpace(s[|s| - 1]) then DropTrailingSpace(s[..|s| - 1]) else s
  }

  /** `s > 0` for a text s, whose number is read as a whole: white space
      around an optional sign and decimal digits. Only integer texts are
      read; any other text counts as not exceeding 0. */
  predicate TextExceedsZero(s: string) {
    var t := DropTrailingSpace(SkipSpace(s));
    var u := if |t| > 0 && t[0] == '+' then t[1..] else t;
    |u| > 0 && AllDigits(u) && DigitsValue(u) > 0
  }

  /** The decimal text of an integer exceeds 0 exactly when the integer does. */
  lemma IntegerTextExceedsZero(n: int)
    ensures TextExceedsZero(IntToDecimal(n)) <==> n > 0
  {
    var s := IntToDecimal(n);
    assert !IsLeadingSpace(s[0]) && !IsDigit('-');
    if n >= 0 {
      DigitsValueOfDecimal(n);
      DigitStartsNoSpaceOrSign(s);
      assert DropTrailingSpace(s) == s by {
        assert IsDigit(s[|s| - 1]);
      }
    } else {
      assert SkipSpace(s) == s;
      var t := DropTrailingSpace(s);
      assert |t| > 0 ==> t[0] == '-';
    }
  }

  /** The characters `parseInt` skips before the number: a subset of the
      white space and line terminators ECMAScript names (the other Unicode
      space separators are not listed). */
  predicate IsLeadingSpace(c: char) {
    c == ' ' || c == '\t' || c == '\n' || c == '\r' || c == '\U{000B}' || c == '\U{000C}'
    || c == '\U{00A0}' || c == '\U{FEFF}' || c == '\U{2028}' || c == '\U{2029}'
  }

  function SkipSpace(s: string): (t: string)
    ensures |t| <= |s| && t == s[|s| - |t|..]
    ensures |t| > 0 ==> !IsLeadingSpace(t[0])
  {
    if |s| > 0 && IsLeadingSpace(s[0]) then SkipSpace(s[1..]) else s
  }

  /** The longest run of digits at the start of s. */
  function DigitPrefix(s: string): (d: string)
    ensures d <= s && AllDigits(d)
    ensures |d| < |s| ==> !IsDigit(s[|d|])
  {
    if |s| > 0 && IsDigit(s[0]) then [s[0]] + DigitPrefix(s[1..]) else []
  }

  /** The digits at the start of u, read as a number; `None` when u does
      not start with a digit. */
  function ReadDigits(u: string): (r: Option<nat>)
    ensures r.None? <==> |u| == 0 || !IsDigit(u[0])
  {
    var d := DigitPrefix(u);
    if |d| == 0 then None else Some(DigitsValue(d))
  }

  /** `parseInt(s, 10)`: skip leading white space, take an optional sign,
      read the digits that follow; `None` stands for NaN (no digit there). */
  function ParseIntText(s: string): (r: Option<int>)
  {
    ReadSigned(SkipSpace(s))
  }

  /** The sign and digits at the start of t, which has no leading space. */
  function ReadSigned(t: string): (r: Option<int>)
  {
    if |t| > 0 && t[0] == '-' then Negated(ReadDigits(t[1..]))
    else if |t| > 0 && t[0] == '+' then Widened(ReadDigits(t[1..]))
    else Widened(ReadDigits(t))
  }

  function Widened(v: Option<nat>): (r: Option<int>)
    ensures r.Some? <==> v.Some?
    ensures r.Some? ==> r.value == v.value
  {
    match v
    case None => None
    case Some(n) => Some(n as int)
  }

  function Negated(v: Option<nat>): (r: Option<int>)
    ensures r.Some? <==> v.Some?
    ensures r.Some? ==> r.value == -(v.value as int)
  {
    match v
    case None => None
    case Some(n) => Some(-(n as int))
  }

  lemma {:induction false} DigitPrefixOfDigits(d: string, rest: string)
    requires AllDigits(d)
    requires |rest| > 0 ==> !IsDigit(rest[0])
    ensures DigitPrefix(d + rest) == d
    decreases |d|
  {
    if |d| > 0 {
      var s := d + rest;
      assert s[0] == d[0] && IsDigit(s[0]);
      assert s[1..] == d[1..] + rest;
      DigitPrefixOfDigits(d[1..], rest);
      assert DigitPrefix(s) == [d[0]] + d[1..];
      assert [d[0]] + d[1..] == d;
    } else {
      assert d + rest == rest;
    }
  }

  /** The digits of m read back as m, whatever non-digit text follows. */
  lemma ReadDigitsOfDecimal(m: nat, rest: string)
    requires |rest| > 0 ==> !IsDigit(rest[0])
    ensures ReadDigits(NatToDecimal(m) + rest) == Some(m)
  {
    DigitsValueOfDecimal(m);
    DigitPrefixOfDigits(NatToDecimal(m), rest);
  }

  /** A text starting with a digit has no leading space and no sign. */
  lemma DigitStartsNoSpaceOrSign(s: string)
    requires |s| > 0 && IsDigit(s[0])
    ensures SkipSpace(s) == s
    ensures s[0] != '-' && s[0] != '+'
  {
    assert !IsLeadingSpace(s[0]);
  }

  /** `parseInt` reads back the text of a non-negative integer. */
  lemma ParseIntOfNatural(m: nat, rest: string)
    requires |rest| > 0 ==> !IsDigit(rest[0])
    ensures ParseIntText(NatToDecimal(m) + rest) == Some(m)
  {
    var s := NatToDecimal(m) + rest;
    assert s[0] == NatToDecimal(m)[0];
    DigitStartsNoSpaceOrSign(s);
    ReadDigitsOfDecimal(m, rest);
    assert ReadSigned(s) == Widened(ReadDigits(s));
  }

  /** A text starting with '-' is read as the negated digits after it. */
  lemma MinusStartsNegative(d: string, rest: string, m: nat)
    requires ReadDigits(d + rest) == Some(m)
    ensures ParseIntText("-" + d + rest) == Some(-(m as int))
  {
    var u := d + rest;
    var s := "-" + u;
    assert "-" + d + rest == s;
    assert s[0] == '-' && !IsLeadingSpace(s[0]);
    assert SkipSpace(s) == s;
    assert s[1..] == u;
  }

  /** `parseInt` reads back the text of a negative integer. */
  lemma ParseIntOfNegative(m: nat, rest: string)
    requires |rest| > 0 ==> !IsDigit(rest[0])
    ensures ParseIntText("-" + NatToDecimal(m) + rest) == Some(-(m as int))
  {
    ReadDigitsOfDecimal(m, rest);
    MinusStartsNegative(NatToDecimal(m), rest, m);
  }

  /** `parseInt` reads back the text of any integer, whatever non-digit
      text follows it. */
  lemma ParseIntOfDecimal(n: int, rest: string)
    requires |rest| > 0 ==> !IsDigit(rest[0])
    ensures ParseIntText(IntToDecimal(n) + rest) == Some(n)
  {
    if n < 0 {
      ParseIntOfNegative(-n, rest);
    } else {
      ParseIntOfNatural(n, rest);
    }
  }
}

=== FILE: js_values.dfy ===
/**
 * The JavaScript values the pages receive as JSON, and the few language
 * operations the modelled code applies to them: truthiness, `===`, `||`,
 * `String(v)`, property reads, `typeof v === 'object'`, object spread and
 * `parseInt(v, 10)`.
 */
module JsValues {
  import opened Results
  import Decimal

  /** A JavaScript value. The model assumes the numbers the pages handle
      (identifiers, counts, weights) are integral, and takes them unbounded;
      NaN is a case of its own. An object is the map of its own enumerable
      properties. */
  datatype JsValue =
    | Undefined
    | Null
    | Bool(b: bool)
    | Num(n: int)
    | NaN
    | Str(s: string)
    | Arr(items: seq<JsValue>)
    | Obj(props: map<string, JsValue>)

  type Object = map<string, JsValue>

  /** The exceptions the modelled code can raise. */
  datatype Thrown = TypeError | RangeError

  /** What an HTTP call through axios settles to: the parsed body of a
      successful response, or a rejection. */
  datatype HttpReply = Received(data: JsValue) | RequestFailed

  predicate Nullish(v: JsValue) {
    v.Undefined? || v.Null?
  }

  /** ToBoolean: the test behind `if (!v)`, `v ? a : b` and `&&`/`||`. */
  predicate Truthy(v: JsValue) {
    match v
    case Undefined => false
    case Null => false
    case Bool(b) => b
    case Num(n) => n != 0
    case NaN => false
    case Str(s) => |s| > 0
    case Arr(_) => true
    case Obj(_) => true
  }

  /** `a || b` */
  function Or(a: JsValue, b: JsValue): (r: JsValue)
    ensures Truthy(a) ==> r == a
    ensures !Truthy(a) ==> r == b
  {
    if Truthy(a) then a else b
  }

  /** `typeof v === 'object'` */
  predicate IsObjectType(v: JsValue) {
    v.Null? || v.Arr? || v.Obj?
  }

  /** `a === b`. Arrays and objects compare by reference; the model has no
      references, so an array or object is never `===` to anything, itself
      included. */
  predicate StrictEquals(a: JsValue, b: JsValue) {
    match a
    case Undefined => b.Undefined?
    case Null => b.Null?
    case Bool(x) => b == Bool(x)
    case Num(x) => b == Num(x)
    case NaN => false
    case Str(x) => b == Str(x)
    case Arr(_) => false
    case Obj(_) => false
  }

  /** `===` holds exactly between equal primitives other than NaN. */
  lemma StrictEqualsCharacterized(a: JsValue, b: JsValue)
    ensures StrictEquals(a, b) <==> a == b && !a.NaN? && !a.Arr? && !a.Obj?
    ensures StrictEquals(a, b) <==> StrictEquals(b, a)
  {
  }

  /** `String(v)`; a template literal `${v}` yields the same text. */
  function ToString(v: JsValue): string
    decreases v
  {
    match v
    case Undefined => "undefined"
    case Null => "null"
    case Bool(b) => if b then "true" else "false"
    case Num(n) => Decimal.IntToDecimal(n)
    case NaN => "NaN"
    case Str(s) => s
    case Arr(xs) => JoinItems(xs)
    case Obj(_) => "[object Object]"
  }

  /** `xs.join(',')`: null and undefined elements contribute empty text. */
  function JoinItems(xs: seq<JsValue>): string
    decreases xs
  {
    if |xs| == 0 then ""
    else
      var last := xs[|xs| - 1];
      var text := if Nullish(last) then "" else ToString(last);
      if |xs| == 1 then text else JoinItems(xs[..|xs| - 1]) + "," + text
  }

  /** An own property of an object, or undefined. */
  function Get(m: Object, key: string): (r: JsValue)
    ensures key !in m ==> r == Undefined
    ensures key in m ==> r == m[key]
  {
    if key in m then m[key] else Undefined
  }

  /** The element index a property key names, when it is the canonical
      decimal text of an index below n. */
  function IndexKey(key: string, n: nat): (r: Option<nat>)
    ensures r.Some? ==> r.value < n && Decimal.NatToDecimal(r.value) == key
  {
    if |key| > 0 && Decimal.IsDigit(key[0]) && Decimal.Canonical(key) && Decimal.DigitsValue(key) < n then
      Decimal.DecimalOfDigitsValue(key);
      Some(Decimal.DigitsValue(key))
    else None
  }

  /** `v[key]` for a v that is neither null nor undefined (reading a property
      of those throws, and callers model that). Only own data properties are
      seen, plus `length` and the indices of arrays and strings. */
  function Prop(v: JsValue, key: string): JsValue
    requires !Nullish(v)
  {
    match v
    case Obj(m) => Get(m, key)
    case Arr(xs) =>
      if key == "length" then Num(|xs|)
      else (match IndexKey(key, |xs|)
            case Some(i) => xs[i]
            case None => Undefined)
    case Str(s) =>
      if key == "length" then Num(|s|)
      else (match IndexKey(key, |s|)
            case Some(i) => Str([s[i]])
            case None => Undefined)
    case _ => Undefined
  }

  /** `xs[i]` reads element i of an array. */
  lemma {:induction false} PropOfIndex(xs: seq<JsValue>, i: nat)
    requires i < |xs|
    ensures Prop(Arr(xs), Decimal.NatToDecimal(i)) == xs[i]
  {
    var key := Decimal.NatToDecimal(i);
    Decimal.DigitsValueOfDecimal(i);
    assert key != "length" by {
      assert Decimal.IsDigit(key[0]);
    }
  }

  /** An object whose keys are the decimal indices of xs, and no others. */
  function IndexKeyed(xs: seq<JsValue>): (m: Object)
    ensures forall i :: 0 <= i < |xs| ==> Decimal.NatToDecimal(i) in m && m[Decimal.NatToDecimal(i)] == xs[i]
    ensures forall k :: k in m ==> Decimal.Canonical(k) && Decimal.DigitsValue(k) < |xs|
  {
    if |xs| == 0 then map[]
    else
      var n := |xs| - 1;
      var prev := IndexKeyed(xs[..n]);
      var m := prev[Decimal.NatToDecimal(n) := xs[n]];
      IndexKeyedValues(xs, prev, m);
      IndexKeyedKeys(xs, prev, m);
      m
  }

  /** Adding the last index keeps the values stored under earlier ones. */
  lemma IndexKeyedValues(xs: seq<JsValue>, prev: Object, m: Object)
    requires |xs| > 0
    requires forall i :: 0 <= i < |xs| - 1 ==> Decimal.NatToDecimal(i) in prev && prev[Decimal.NatToDecimal(i)] == xs[i]
    requires m == prev[Decimal.NatToDecimal(|xs| - 1) := xs[|xs| - 1]]
    ensures forall i :: 0 <= i < |xs| ==> Decimal.NatToDecimal(i) in m && m[Decimal.NatToDecimal(i)] == xs[i]
  {
    var n := |xs| - 1;
    forall i | 0 <= i < n
      ensures Decimal.NatToDecimal(i) in m && m[Decimal.NatToDecimal(i)] == xs[i]
    {
      Decimal.NatToDecimalInjective(i, n);
    }
  }

  /** ... and adds no key but the decimal text of the last index. */
  lemma IndexKeyedKeys(xs: seq<JsValue>, prev: Object, m: Object)
    requires |xs| > 0
    requires forall k :: k in prev ==> Decimal.Canonical(k) && Decimal.DigitsValue(k) < |xs| - 1
    requires m == prev[Decimal.NatToDecimal(|xs| - 1) := xs[|xs| - 1]]
    ensures forall k :: k in m ==> Decimal.Canonical(k) && Decimal.DigitsValue(k) < |xs|
  {
    Decimal.DigitsValueOfDecimal(|xs| - 1);
  }

  /** `{...v}`: the own enumerable properties of v, copied into a new object. */
  function Spread(v: JsValue): (m: Object)
    ensures v.Obj? ==> m == v.props
    ensures v.Arr? ==> forall i :: 0 <= i < |v.items| ==> Get(m, Decimal.NatToDecimal(i)) == v.items[i]
    ensures v.Str? ==> forall i :: 0 <= i < |v.s| ==> Get(m, Decimal.NatToDecimal(i)) == Str([v.s[i]])
    ensures !v.Obj? && !v.Arr? && !v.Str? ==> m == map[]
    ensures !v.Obj? ==> forall k :: k in m ==> Decimal.Canonical(k)
    ensures v.Arr? ==> forall k :: k in m ==> Decimal.Canonical(k) && Decimal.DigitsValue(k) < |v.items|
    ensures v.Str? ==> forall k :: k in m ==> Decimal.Canonical(k) && Decimal.DigitsValue(k) < |v.s|
  {
    match v
    case Obj(props) => props
    case Arr(xs) => IndexKeyed(xs)
    case Str(s) => IndexKeyed(seq(|s|, i requires 0 <= i < |s| => Str([s[i]])))
    case _ => map[]
  }

  /** Every key the spread of an array or a string has is the decimal text
      of one of its indices. */
  lemma SpreadKeyIsIndex(v: JsValue, k: string)
    requires v.Arr? || v.Str?
    requires k in Spread(v)
    ensures exists i :: 0 <= i < (if v.Arr? then |v.items| else |v.s|) && k == Decimal.NatToDecimal(i)
  {
    Decimal.DecimalOfDigitsValue(k);
    var i := Decimal.DigitsValue(k);
    assert k == Decimal.NatToDecimal(i);
  }

  /** `parseInt(v, 10)`: the argument is first turned into text. The result
      is NaN exactly when no digit follows the leading white space and the
      optional sign. */
  function ParseInt(v: JsValue): (r: JsValue)
    ensures r.Num? || r.NaN?
    ensures var t := Decimal.SkipSpace(ToString(v));
            var u := if |t| > 0 && (t[0] == '-' || t[0] == '+') then t[1..] else t;
            r.NaN? <==> |u| == 0 || !Decimal.IsDigit(u[0])
  {
    match Decimal.ParseIntText(ToString(v))
    case Some(n) => Num(n)
    case None => NaN
  }

  /** `parseInt` gives back an integral number, and the decimal text of one,
      for every integer of the model; JavaScript agrees for integers up to
      2^53 in magnitude. */
  lemma ParseIntRoundTrip(n: int)
    ensures ParseInt(Num(n)) == Num(n)
    ensures ParseInt(Str(Decimal.IntToDecimal(n))) == Num(n)
  {
    Decimal.ParseIntOfDecimal(n, "");
    assert Decimal.IntToDecimal(n) + "" == Decimal.IntToDecimal(n);
  }
}

=== FILE: parcels_page.dfy ===
/**
 * The parcel list page: the status update applied to the loaded list, the
 * search filter, the pagination window and the rows-per-page change.
 */
module ParcelsPage {
  import opened Results
  import opened JsValues
  import Decimal
  import Text
  import Sequences

  /** The page's state: the loaded parcels, the pagination and search inputs,
      and the error banner. */
  datatype ParcelsState = ParcelsState(
    parcels: JsValue,
    page: int,
    rowsPerPage: JsValue,
    searchTerm: string,
    error: Option<string>)

  const UpdateErrorText := "เกิดข้อผิดพลาดในการอัพเดทสถานะ"

  // ---------------------------------------------------------------------
  // handleStatusChange

  /** `{ ...parcel, Status: status }` */
  function WithStatus(parcel: JsValue, status: JsValue): JsValue {
    Obj(Spread(parcel)["Status" := status])
  }

  predicate NoNullish(xs: seq<JsValue>) {
    forall i :: 0 <= i < |xs| ==> !Nullish(xs[i])
  }

  /** `parcels.map(p => p.ParcelID === parcelId ? { ...p, Status: status } : p)`;
      reading ParcelID of a null element throws. */
  function ApplyStatus(parcels: seq<JsValue>, parcelId: JsValue, status: JsValue): (r: Result<seq<JsValue>, Thrown>)
    ensures r.Ok? <==> NoNullish(parcels)
    ensures r.Ok? ==> |r.value| == |parcels|
    ensures r.Ok? ==> forall i :: 0 <= i < |parcels| ==>
              r.value[i] == if StrictEquals(Prop(parcels[i], "ParcelID"), parcelId)
                            then WithStatus(parcels[i], status) else parcels[i]
  {
    if |parcels| == 0 then Ok([])
    else if Nullish(parcels[0]) then Err(TypeError)
    else
      var head := if StrictEquals(Prop(parcels[0], "ParcelID"), parcelId)
                  then WithStatus(parcels[0], status) else parcels[0];
      match ApplyStatus(parcels[1..], parcelId, status)
      case Err(e) => Err(e)
      case Ok(tail) => Ok([head] + tail)
  }

  /** `handleStatusChange(parcelId, status)` once `updateParcelStatus`
      settles. The callback maps `captured`, the list the handler's closure
      saw when the user picked the status, not the list in the state when
      the request settles. On success the mapped list replaces the state's
      list; on failure (or when the map throws) the error banner is set and
      the list is left alone. */
  function ChangeStatus(s: ParcelsState, captured: JsValue, parcelId: JsValue, status: JsValue, reply: HttpReply): (r: ParcelsState)
    ensures r.page == s.page && r.rowsPerPage == s.rowsPerPage && r.searchTerm == s.searchTerm
    ensures reply.RequestFailed? ==> r == s.(error := Some(UpdateErrorText))
    ensures reply.Received? && captured.Arr? && NoNullish(captured.items) ==>
              r == s.(parcels := Arr(ApplyStatus(captured.items, parcelId, status).value))
    ensures !(captured.Arr? && NoNullish(captured.items)) ==> r == s.(error := Some(UpdateErrorText))
  {
    match reply
    case RequestFailed => s.(error := Some(UpdateErrorText))
    case Received(_) =>
      if !captured.Arr? then s.(error := Some(UpdateErrorText))
      else
        match ApplyStatus(captured.items, parcelId, status)
        case Ok(updated) => s.(parcels := Arr(updated))
        case Err(_) => s.(error := Some(UpdateErrorText))
  }

  /** As written, a successful update's list depends only on the captured
      list: whatever an earlier update put into the state is overwritten. */
  lemma StaleUpdateDiscardsState(s: ParcelsState, s': ParcelsState, captured: JsValue,
                                 parcelId: JsValue, status: JsValue, data: JsValue)
    requires captured.Arr? && NoNullish(captured.items)
    ensures ChangeStatus(s, captured, parcelId, status, Received(data)).parcels ==
            ChangeStatus(s', captured, parcelId, status, Received(data)).parcels
  {
  }

  /** Two parcels, and the list both handlers capture when two status
      changes are picked before either request settles. */
  function TwoParcels(): (l: JsValue)
    ensures l.Arr? && |l.items| == 2 && NoNullish(l.items)
  {
    Arr([Obj(map["ParcelID" := Num(1), "Status" := Num(1)]),
         Obj(map["ParcelID" := Num(2), "Status" := Num(1)])])
  }

  /** Parcel 1 is set to status 3 and parcel 2 to status 4, both from the
      same captured list: once both requests have succeeded, parcel 1 has
      lost its new status although its request succeeded. */
  lemma OverlappingUpdatesLoseTheFirst(s: ParcelsState, d1: JsValue, d2: JsValue)
    requires s.parcels == TwoParcels()
    ensures var first := ChangeStatus(s, TwoParcels(), Num(1), Num(3), Received(d1));
            var both := ChangeStatus(first, TwoParcels(), Num(2), Num(4), Received(d2));
            && first.parcels.Arr? && Prop(first.parcels.items[0], "Status") == Num(3)
            && both.parcels.Arr? && Prop(both.parcels.items[0], "Status") == Num(1)
            && Prop(both.parcels.items[1], "Status") == Num(4)
  {
  }

  /** The update as evidently intended, `setParcels(prev => prev.map(...))`:
      the list mapped is the one in the state when the request settles. A
      list the map throws on keeps the handler's error path here; with an
      updater React runs the map outside the handler's `try`, so the throw
      would not reach its `catch`. */
  function ChangeStatusOnLatest(s: ParcelsState, parcelId: JsValue, status: JsValue, reply: HttpReply): (r: ParcelsState)
    ensures r.page == s.page && r.rowsPerPage == s.rowsPerPage && r.searchTerm == s.searchTerm
    ensures reply.RequestFailed? ==> r == s.(error := Some(UpdateErrorText))
    ensures reply.Received? && s.parcels.Arr? && NoNullish(s.parcels.items) ==>
              r == s.(parcels := Arr(ApplyStatus(s.parcels.items, parcelId, status).value))
    ensures !(s.parcels.Arr? && NoNullish(s.parcels.items)) ==> r == s.(error := Some(UpdateErrorText))
  {
    ChangeStatus(s, s.parcels, parcelId, status, reply)
  }

  /** Setting the Status leaves the ParcelID as it read before. */
  lemma StatusKeepsParcelId(p: JsValue, status: JsValue)
    requires !Nullish(p)
    ensures Prop(WithStatus(p, status), "ParcelID") == Prop(p, "ParcelID")
    ensures Prop(WithStatus(p, status), "Status") == status
  {
    if !p.Obj? {
      assert !Decimal.IsDigit('P');
      assert "ParcelID" !in Spread(p);
    }
  }

  /** After a successful update the list keeps its length; exactly the
      parcels whose ParcelID is `=== parcelId` get the new Status, every
      other property of theirs is kept, and every other parcel is untouched. */
  lemma StatusUpdateTouchesOnlyTarget(s: ParcelsState, parcelId: JsValue, status: JsValue, data: JsValue)
    requires s.parcels.Arr? && NoNullish(s.parcels.items)
    ensures var r := ChangeStatusOnLatest(s, parcelId, status, Received(data));
            && r.error == s.error
            && r.parcels.Arr? && |r.parcels.items| == |s.parcels.items|
            && forall i :: 0 <= i < |s.parcels.items| ==>
                 var before := s.parcels.items[i];
                 var after := r.parcels.items[i];
                 if StrictEquals(Prop(before, "ParcelID"), parcelId) then
                   after.Obj? && Get(after.props, "Status") == status
                   && (before.Obj? ==> forall k :: k in before.props && k != "Status" ==> Get(after.props, k) == before.props[k])
                   && (before.Obj? ==> after.props.Keys == before.props.Keys + {"Status"})
                 else after == before
  {
  }

  /** With the corrected update, two successful updates applied one after the
      other both take effect: the later one wins on parcels both target, the
      earlier one's Status stays on parcels only it targets, and all other
      parcels are untouched. */
  lemma SuccessiveUpdatesBothApply(s: ParcelsState, id1: JsValue, status1: JsValue, id2: JsValue,
                                   status2: JsValue, d1: JsValue, d2: JsValue)
    requires s.parcels.Arr? && NoNullish(s.parcels.items)
    ensures var r := ChangeStatusOnLatest(ChangeStatusOnLatest(s, id1, status1, Received(d1)), id2, status2, Received(d2));
            && r.parcels.Arr? && |r.parcels.items| == |s.parcels.items|
            && forall i :: 0 <= i < |s.parcels.items| ==>
                 var id := Prop(s.parcels.items[i], "ParcelID");
                 var after := r.parcels.items[i];
                 && (StrictEquals(id, id2) ==> !Nullish(after) && Prop(after, "Status") == status2)
                 && (StrictEquals(id, id1) && !StrictEquals(id, id2) ==> !Nullish(after) && Prop(after, "Status") == status1)
                 && (!StrictEquals(id, id1) && !StrictEquals(id, id2) ==> after == s.parcels.items[i])
  {
    var xs := s.parcels.items;
    var mid := ApplyStatus(xs, id1, status1).value;
    forall i | 0 <= i < |xs|
      ensures !Nullish(mid[i])
    {
      OneElementTwoUpdates(xs[i], id1, status1, id2, status2);
    }
    assert NoNullish(mid);
    var last := ApplyStatus(mid, id2, status2).value;
    assert ChangeStatusOnLatest(ChangeStatusOnLatest(s, id1, status1, Received(d1)), id2, status2, Received(d2)).parcels == Arr(last);
    forall i | 0 <= i < |xs|
      ensures var id := Prop(xs[i], "ParcelID");
              && (StrictEquals(id, id2) ==> !Nullish(last[i]) && Prop(last[i], "Status") == status2)
              && (StrictEquals(id, id1) && !StrictEquals(id, id2) ==> !Nullish(last[i]) && Prop(last[i], "Status") == status1)
              && (!StrictEquals(id, id1) && !StrictEquals(id, id2) ==> last[i] == xs[i])
    {
      OneElementTwoUpdates(xs[i], id1, status1, id2, status2);
    }
  }

  /** One element of the list through the two successive maps. */
  lemma OneElementTwoUpdates(x: JsValue, id1: JsValue, status1: JsValue, id2: JsValue, status2: JsValue)
    requires !Nullish(x)
    ensures var id := Prop(x, "ParcelID");
            var m := if StrictEquals(id, id1) then WithStatus(x, status1) else x;
            && !Nullish(m) && Prop(m, "ParcelID") == id
            && var l := if StrictEquals(Prop(m, "ParcelID"), id2) then WithStatus(m, status2) else m;
            && !Nullish(l)
            && (StrictEquals(id, id2) ==> Prop(l, "Status") == status2)
            && (StrictEquals(id, id1) && !StrictEquals(id, id2) ==> Prop(l, "Status") == status1)
            && (!StrictEquals(id, id1) && !StrictEquals(id, id2) ==> l == x)
  {
    StatusKeepsParcelId(x, status1);
    var m := if StrictEquals(Prop(x, "ParcelID"), id1) then WithStatus(x, status1) else x;
    StatusKeepsParcelId(m, status2);
  }

  // ---------------------------------------------------------------------
  // filteredParcels

  /** Where one searched text comes from: `String(p[key])`,
      `String(p[key] || '')`, or the composed address line
      `${p.SubDistrict || ''} ${p.District || ''} ${p.Province}`. */
  datatype Column = Plain(key: string) | Defaulted(key: string) | AddressLine

  /** The columns the search looks in, in the page's order; the fourth names
      the `Legion` property, which nothing else in the front end reads or
      writes. */
  const SearchColumns: seq<Column> := [
    Plain("ParcelID"), Plain("Weight"), Plain("Province"), Plain("Legion"),
    Defaulted("Status"), Defaulted("District"), Defaulted("SubDistrict"), Defaulted("Address"),
    AddressLine]

  function ColumnText(p: JsValue, c: Column): string
    requires !Nullish(p)
  {
    match c
    case Plain(key) => ToString(Prop(p, key))
    case Defaulted(key) => ToString(Or(Prop(p, key), Str("")))
    case AddressLine =>
      ToString(Or(Prop(p, "SubDistrict"), Str(""))) + " " +
      ToString(Or(Prop(p, "District"), Str(""))) + " " +
      ToString(Prop(p, "Province"))
  }

  /** An absent property reads as undefined: its plain text is "undefined",
      its defaulted text is empty. */
  lemma AbsentColumnText(p: JsValue, key: string)
    requires p.Obj? && key !in p.props
    ensures ColumnText(p, Plain(key)) == "undefined"
    ensures ColumnText(p, Defaulted(key)) == ""
  {
  }

  /** The lower-cased term occurs in the lower-cased text of column c. */
  predicate ColumnMatches(p: JsValue, c: Column, term: string)
    requires !Nullish(p)
  {
    Text.Includes(Text.ToLower(ColumnText(p, c)), Text.ToLower(term))
  }

  /** The `||` chain of the filter callback over the given columns. */
  predicate MatchesIn(p: JsValue, columns: seq<Column>, term: string)
    requires !Nullish(p)
  {
    exists i :: 0 <= i < |columns| && ColumnMatches(p, columns[i], term)
  }

  /** The callback of `parcels.filter`. */
  predicate Matches(p: JsValue, term: string)
    requires !Nullish(p)
  {
    MatchesIn(p, SearchColumns, term)
  }

  predicate Keep(p: JsValue, term: string) {
    !Nullish(p) && Matches(p, term)
  }

  /** `filteredParcels`: a state that is not an array gives the empty list;
      a null element makes the filter callback throw. */
  function FilterParcels(parcels: JsValue, term: string): (r: Result<seq<JsValue>, Thrown>)
    ensures !parcels.Arr? ==> r == Ok([])
    ensures parcels.Arr? ==> (r.Ok? <==> NoNullish(parcels.items))
    ensures parcels.Arr? && r.Ok? ==>
              && Sequences.IsSubsequence(r.value, parcels.items)
              && (forall x :: x in r.value ==> !Nullish(x) && Matches(x, term))
              && (forall i :: 0 <= i < |parcels.items| && Matches(parcels.items[i], term) ==> parcels.items[i] in r.value)
              && multiset(r.value) <= multiset(parcels.items)
              && (forall x :: x in parcels.items && Keep(x, term) ==> multiset(r.value)[x] == multiset(parcels.items)[x])
              && |r.value| == Sequences.CountWhere(parcels.items, p => Keep(p, term))
  {
    if !parcels.Arr? then Ok([])
    else if !NoNullish(parcels.items) then Err(TypeError)
    else Ok(Sequences.Filter(parcels.items, p => Keep(p, term)))
  }

  /** An empty search term keeps every parcel, in order. */
  lemma EmptyTermKeepsAll(xs: seq<JsValue>)
    requires NoNullish(xs)
    ensures FilterParcels(Arr(xs), "") == Ok(xs)
  {
    forall i | 0 <= i < |xs|
      ensures Keep(xs[i], "")
    {
      Text.EmptyIncluded(Text.ToLower(ColumnText(xs[i], SearchColumns[0])));
      assert Text.ToLower("") == "";
      assert ColumnMatches(xs[i], SearchColumns[0], "");
    }
    Sequences.FilterKeepsAll(xs, p => Keep(p, ""));
  }

  // ---------------------------------------------------------------------
  // The `Legion` typo: String(undefined) is "undefined", so a parcel without
  // a Legion property matches every term that occurs in "undefined".

  /** Any parcel without a Legion property matches a term such as "fin",
      whatever its real columns hold. */
  lemma LegionTypoMatchesEverything(p: JsValue, term: string)
    requires p.Obj? && "Legion" !in p.props
    requires Text.Includes("undefined", Text.ToLower(term))
    ensures Matches(p, term)
  {
    assert SearchColumns[3] == Plain("Legion");
    AbsentColumnText(p, "Legion");
    Text.LowerTextUnchanged("undefined");
    assert ColumnMatches(p, SearchColumns[3], term);
  }

  /** The example parcel of the finding: no Legion, no Region, and no column
      containing "fin". */
  function ExampleParcel(): (p: JsValue)
    ensures p.Obj?
  {
    Obj(map["ParcelID" := Num(7), "Weight" := Num(120), "Province" := Str("ภูเก็ต")])
  }

  /** The example parcel is kept by a search for "fin". */
  lemma LegionTypoExample()
    ensures Matches(ExampleParcel(), "fin")
  {
    assert Text.OccursAt("undefined", "fin", 4) by {
      assert "undefined"[4] == 'f' && "undefined"[5] == 'i' && "undefined"[6] == 'n';
      assert "undefined"[4..7] == "fin";
    }
    Text.LowerTextUnchanged("fin");
    LegionTypoMatchesEverything(ExampleParcel(), "fin");
  }

  /** The columns as evidently intended: the Region column, empty when
      absent, in place of the nonexistent Legion. */
  const CorrectedColumns: seq<Column> := SearchColumns[3 := Defaulted("Region")]

  predicate MatchesCorrected(p: JsValue, term: string)
    requires !Nullish(p)
  {
    MatchesIn(p, CorrectedColumns, term)
  }

  /** With the correction a missing Region column contributes no text: a
      non-empty term that occurs in none of the other columns is not kept. */
  lemma AbsentRegionNeverMatches(p: JsValue, term: string)
    requires p.Obj? && "Region" !in p.props
    requires |term| > 0
    requires forall i :: 0 <= i < |SearchColumns| && i != 3 ==> !ColumnMatches(p, SearchColumns[i], term)
    ensures !MatchesCorrected(p, term)
  {
    forall i | 0 <= i < |CorrectedColumns|
      ensures !ColumnMatches(p, CorrectedColumns[i], term)
    {
      if i == 3 {
        AbsentColumnText(p, "Region");
        assert Text.ToLower("") == "";
      } else {
        assert CorrectedColumns[i] == SearchColumns[i];
      }
    }
  }

  /** No text of a number contains a letter. */
  lemma NumberTextHasNoLetters(n: nat)
    ensures forall j :: 0 <= j < |ToString(Num(n))| ==> Decimal.IsDigit(ToString(Num(n))[j])
  {
  }

  /** The corrected search does not keep the example parcel. */
  lemma CorrectedSearchRejectsExample()
    ensures !MatchesCorrected(ExampleParcel(), "fin")
  {
    var p := ExampleParcel();
    Text.LowerTextUnchanged("fin");
    forall i | 0 <= i < |SearchColumns| && i != 3
      ensures !ColumnMatches(p, SearchColumns[i], "fin")
    {
      var t := ColumnText(p, SearchColumns[i]);
      ExampleTextLacksF(i);
      assert forall j :: 0 <= j < |t| ==> Text.ToLower(t)[j] == Text.LowerChar(t[j]);
      Text.MissingFirstCharNotIncluded(Text.ToLower(t), "fin");
    }
    AbsentRegionNeverMatches(p, "fin");
  }

  /** t contains the letter f in neither case. */
  predicate LacksF(t: string) {
    forall j :: 0 <= j < |t| ==> t[j] != 'f' && t[j] != 'F'
  }

  /** Every column text but the fourth of the example parcel lacks the
      letter f. */
  lemma ExampleTextLacksF(i: int)
    requires 0 <= i < |SearchColumns| && i != 3
    ensures LacksF(ColumnText(ExampleParcel(), SearchColumns[i]))
  {
    var c := SearchColumns[i];
    if i < 2 {
      ExampleNumbersLackF();
    } else if i == 2 || i == 8 {
      ExampleProvinceLacksF();
    } else {
      assert c.Defaulted? && c.key in {"Status", "District", "SubDistrict", "Address"};
      AbsentColumnText(ExampleParcel(), c.key);
    }
  }

  lemma ExampleNumbersLackF()
    ensures LacksF(ColumnText(ExampleParcel(), Plain("ParcelID")))
    ensures LacksF(ColumnText(ExampleParcel(), Plain("Weight")))
  {
    NumberTextHasNoLetters(7);
    NumberTextHasNoLetters(120);
  }

  lemma ExampleProvinceLacksF()
    ensures LacksF(ColumnText(ExampleParcel(), Plain("Province")))
    ensures LacksF(ColumnText(ExampleParcel(), AddressLine))
  {
    AbsentColumnText(ExampleParcel(), "District");
    AbsentColumnText(ExampleParcel(), "SubDistrict");
    assert ColumnText(ExampleParcel(), AddressLine) == "  ภูเก็ต";
  }

  // ---------------------------------------------------------------------
  // totalPages, currentPageData

  /** `Math.ceil(n / rowsPerPage)` */
  function TotalPages(n: nat, rowsPerPage: int): (pages: nat)
    requires rowsPerPage > 0
    ensures (pages - 1) * rowsPerPage < n <= pages * rowsPerPage
  {
    (n + rowsPerPage - 1) / rowsPerPage
  }

  /** `filtered.slice(page * rowsPerPage, page * rowsPerPage + rowsPerPage)` */
  function CurrentPage<T>(filtered: seq<T>, page: int, rowsPerPage: int): seq<T> {
    Sequences.Slice(filtered, page * rowsPerPage, page * rowsPerPage + rowsPerPage)
  }

  function Min(a: int, b: int): int {
    if a < b then a else b
  }

  /** A slice from a non-negative start of a non-negative length is the
      window of that length, cut at the end of the sequence, and so holds at
      most len elements. */
  lemma SliceWindow<T>(xs: seq<T>, start: nat, len: nat)
    ensures Sequences.Slice(xs, start, start + len) == xs[Min(start, |xs|)..Min(start + len, |xs|)]
    ensures |Sequences.Slice(xs, start, start + len)| <= len
  {
  }

  /** The page is the window [page*rowsPerPage, page*rowsPerPage+rowsPerPage)
      of the filtered list, cut at its end; it has at most rowsPerPage rows. */
  lemma PageIsWindow<T>(filtered: seq<T>, page: nat, rowsPerPage: nat)
    ensures CurrentPage(filtered, page, rowsPerPage) ==
            filtered[Min(page * rowsPerPage, |filtered|)..Min(page * rowsPerPage + rowsPerPage, |filtered|)]
    ensures |CurrentPage(filtered, page, rowsPerPage)| <= rowsPerPage
  {
    var start: nat := page * rowsPerPage;
    assert CurrentPage(filtered, page, rowsPerPage) == Sequences.Slice(filtered, start, start + rowsPerPage);
    SliceWindow(filtered, start, rowsPerPage);
  }

  /** Pages 0 .. count-1, one after the other. */
  function PagesUpTo<T>(filtered: seq<T>, rowsPerPage: int, count: nat): seq<T> {
    if count == 0 then [] else PagesUpTo(filtered, rowsPerPage, count - 1) + CurrentPage(filtered, count - 1, rowsPerPage)
  }

  lemma {:induction false} PagesUpToIsPrefix<T>(filtered: seq<T>, rowsPerPage: nat, count: nat)
    ensures PagesUpTo(filtered, rowsPerPage, count) == filtered[..Min(count * rowsPerPage, |filtered|)]
  {
    if count > 0 {
      var start := (count - 1) * rowsPerPage;
      NextPageStart(count, rowsPerPage);
      var a, b := Min(start, |filtered|), Min(count * rowsPerPage, |filtered|);
      PagesUpToIsPrefix(filtered, rowsPerPage, count - 1);
      PageIsWindow(filtered, count - 1, rowsPerPage);
      assert PagesUpTo(filtered, rowsPerPage, count) == filtered[..a] + filtered[a..b];
      PrefixThenWindow(filtered, a, b);
    }
  }

  lemma PrefixThenWindow<T>(xs: seq<T>, a: nat, b: nat)
    requires a <= b <= |xs|
    ensures xs[..a] + xs[a..b] == xs[..b]
  {
  }

  lemma NextPageStart(count: nat, rowsPerPage: nat)
    requires count > 0
    ensures (count - 1) * rowsPerPage + rowsPerPage == count * rowsPerPage
  {
  }

  /** Pages 0 .. totalPages-1 together give back the filtered list. */
  lemma PagesReassemble<T>(filtered: seq<T>, rowsPerPage: int)
    requires rowsPerPage > 0
    ensures PagesUpTo(filtered, rowsPerPage, TotalPages(|filtered|, rowsPerPage)) == filtered
  {
    PagesUpToIsPrefix(filtered, rowsPerPage, TotalPages(|filtered|, rowsPerPage));
  }

  // ---------------------------------------------------------------------
  // handleChangeRowsPerPage

  /** `setRowsPerPage(parseInt(value, 10)); setPage(0)` */
  function ChangeRowsPerPage(s: ParcelsState, value: JsValue): (r: ParcelsState)
    ensures r.page == 0
    ensures r.rowsPerPage.Num? || r.rowsPerPage.NaN?
    ensures r.parcels == s.parcels && r.searchTerm == s.searchTerm && r.error == s.error
  {
    s.(rowsPerPage := ParseInt(value), page := 0)
  }

  /** The menu offers 5, 10, 25 and 50; choosing one, as a number or as its
      text, sets exactly that many rows per page and goes back to page 0. */
  lemma MenuChoiceSetsRowsPerPage(s: ParcelsState, n: int)
    requires n in {5, 10, 25, 50}
    ensures ChangeRowsPerPage(s, Num(n)) == s.(rowsPerPage := Num(n), page := 0)
    ensures ChangeRowsPerPage(s, Str(Decimal.IntToDecimal(n))) == s.(rowsPerPage := Num(n), page := 0)
  {
    ParseIntRoundTrip(n);
  }
}

=== FILE: regions_page.dfy ===
/**
 * The region page's shipment creation: the guard on the two times, the
 * request it builds from the loaded parcels, the timestamp formatting, and
 * the state after the server answers.
 */
module RegionsPage {
  import opened Results
  import opened JsValues
  import Sequences

  // ---------------------------------------------------------------------
  // Timestamp formatting: `iso.slice(0, 19).replace('T', ' ')`

  /** The index of the first occurrence of c in s. */
  function IndexOf(s: string, c: char): (k: nat)
    requires c in s
    ensures k < |s| && s[k] == c && c !in s[..k]
  {
    if s[0] == c then 0
    else
      var k := IndexOf(s[1..], c);
      assert s[..k + 1] == [s[0]] + s[1..][..k];
      k + 1
  }

  /** `s.replace(from, to)` with a one-character pattern: only the first
      occurrence is replaced. */
  function ReplaceFirst(s: string, from: char, to: char): (r: string)
    ensures |r| == |s|
    ensures from !in s ==> r == s
    ensures from in s ==> r == s[IndexOf(s, from) := to]
  {
    if |s| == 0 then s
    else if s[0] == from then [to] + s[1..]
    else
      var rest := ReplaceFirst(s[1..], from, to);
      if from in s[1..] then
        assert IndexOf(s, from) == IndexOf(s[1..], from) + 1;
        assert [s[0]] + rest == s[IndexOf(s, from) := to];
        [s[0]] + rest
      else
        [s[0]] + rest
  }

  /** The text sent to the server for a time given as its ISO string. */
  function FormatTimestamp(iso: string): (r: string)
    ensures |r| == if |iso| < 19 then |iso| else 19
  {
    ReplaceFirst(Sequences.Slice(iso, 0, 19), 'T', ' ')
  }

  /** The shape of `toISOString()` for a year of four digits:
      `YYYY-MM-DDTHH:mm:ss.sssZ`. */
  predicate IsoShape(iso: string) {
    |iso| == 24
    && (forall i :: 0 <= i < 24 && i !in {4, 7, 10, 13, 16, 19, 23} ==> '0' <= iso[i] <= '9')
    && iso[4] == '-' && iso[7] == '-' && iso[10] == 'T'
    && iso[13] == ':' && iso[16] == ':' && iso[19] == '.' && iso[23] == 'Z'
  }

  /** For an ISO string, the text is its first 19 characters with index 10
      turned into a space and every other character copied:
      `YYYY-MM-DD HH:mm:ss`. */
  lemma FormatIsoTimestamp(iso: string)
    requires IsoShape(iso)
    ensures FormatTimestamp(iso) == iso[..10] + " " + iso[11..19]
  {
    var head := iso[..19];
    assert Sequences.Slice(iso, 0, 19) == head;
    assert head[10] == 'T';
    assert IndexOf(head, 'T') == 10;
    assert head[10 := ' '] == iso[..10] + " " + iso[11..19];
  }

  // ---------------------------------------------------------------------
  // handleCreateShipment

  const MissingTimesText := "กรุณาระบุเวลาออกเดินทางและเวลาที่คาดว่าจะถึง"
  const CreateSuccessText := "สร้างการจัดส่งสำเร็จ"
  const CreateErrorText := "เกิดข้อผิดพลาดในการสร้างการจัดส่ง"

  /** The state the handler reads and writes. The totals were computed when
      the region was chosen and are sent as they are. */
  datatype RegionsState = RegionsState(
    parcels: JsValue,
    departureTime: string,
    estimatedArrival: string,
    totalWeight: JsValue,
    totalArea: JsValue,
    error: Option<JsValue>,
    openDialog: bool,
    successMessage: string)

  /** The body posted to create the shipment. */
  datatype ShipmentRequest = ShipmentRequest(
    departureTime: string,     // departure_time
    estimatedArrival: string,  // estimated_arrival
    parcelIds: seq<JsValue>,   // parcelsID
    totalWeight: JsValue,      // total_weight
    totalArea: JsValue,        // total_area
    status: int)               // status

  /** How the request ended: created, or rejected with the error's
      `response.data` (`None` when the error has no response). */
  datatype ServerReply = Created | Refused(responseData: Option<JsValue>)

  /** `parcels.map(parcel => parcel.ParcelID)`: something that is not an
      array has no map, and a null element cannot be read. */
  function ParcelIds(parcels: JsValue): (r: Result<seq<JsValue>, Thrown>)
    ensures r.Ok? <==> parcels.Arr? && forall i :: 0 <= i < |parcels.items| ==> !Nullish(parcels.items[i])
    ensures r.Ok? ==> |r.value| == |parcels.items|
                      && forall i :: 0 <= i < |r.value| ==> r.value[i] == Prop(parcels.items[i], "ParcelID")
  {
    if !parcels.Arr? then Err(TypeError)
    else IdsOf(parcels.items)
  }

  function IdsOf(xs: seq<JsValue>): (r: Result<seq<JsValue>, Thrown>)
    ensures r.Ok? <==> forall i :: 0 <= i < |xs| ==> !Nullish(xs[i])
    ensures r.Ok? ==> |r.value| == |xs| && forall i :: 0 <= i < |xs| ==> r.value[i] == Prop(xs[i], "ParcelID")
  {
    if |xs| == 0 then Ok([])
    else
      match IdsOf(xs[..|xs| - 1])
      case Err(e) => Err(e)
      case Ok(ids) =>
        if Nullish(xs[|xs| - 1]) then Err(TypeError)
        else Ok(ids + [Prop(xs[|xs| - 1], "ParcelID")])
  }

  /** `error.response?.data?.message || 'เกิดข้อผิดพลาดในการสร้างการจัดส่ง'` */
  function RefusalMessage(responseData: Option<JsValue>): (m: JsValue)
    ensures Truthy(m)
    ensures (responseData.Some? && !Nullish(responseData.value) && Truthy(Prop(responseData.value, "message")))
              ==> m == Prop(responseData.value, "message")
    ensures !(responseData.Some? && !Nullish(responseData.value) && Truthy(Prop(responseData.value, "message"))) ==>
              m == Str(CreateErrorText)
  {
    match responseData
    case None => Str(CreateErrorText)
    case Some(data) =>
      if Nullish(data) then Str(CreateErrorText) else Or(Prop(data, "message"), Str(CreateErrorText))
  }

  /** What the handler leaves behind: the new state, and the request it
      sent, if any. */
  datatype CreateOutcome = CreateOutcome(state: RegionsState, sent: Option<ShipmentRequest>)

  /** `handleCreateShipment`. `toIso` stands for `new Date(t).toISOString()`,
      `None` for an invalid date (where it throws a RangeError); `reply` is
      how the server answers if the request is sent. Anything thrown before
      the request lands in the catch with no response, so the default
      message is shown. */
  function CreateShipment(s: RegionsState, toIso: string -> Option<string>, reply: ServerReply): (r: CreateOutcome)
    ensures s.departureTime == "" || s.estimatedArrival == "" ==>
              r == CreateOutcome(s.(error := Some(Str(MissingTimesText))), None)
    ensures r.sent.None? ==> r.state == s.(error := r.state.error) && r.state.error.Some?
    ensures r.sent.None? && s.departureTime != "" && s.estimatedArrival != "" ==>
              r.state.error == Some(Str(CreateErrorText))
    ensures r.sent.Some? ==>
              && s.departureTime != "" && s.estimatedArrival != ""
              && ParcelIds(s.parcels) == Ok(r.sent.value.parcelIds)
              && toIso(s.departureTime).Some? && toIso(s.estimatedArrival).Some?
              && r.sent.value.departureTime == FormatTimestamp(toIso(s.departureTime).value)
              && r.sent.value.estimatedArrival == FormatTimestamp(toIso(s.estimatedArrival).value)
              && r.sent.value.totalWeight == s.totalWeight && r.sent.value.totalArea == s.totalArea
              && r.sent.value.status == 1
  {
    if s.departureTime == "" || s.estimatedArrival == "" then
      CreateOutcome(s.(error := Some(Str(MissingTimesText))), None)
    else
      match ParcelIds(s.parcels)
      case Err(_) => CreateOutcome(s.(error := Some(Str(CreateErrorText))), None)
      case Ok(ids) =>
        match toIso(s.departureTime)
        case None => CreateOutcome(s.(error := Some(Str(CreateErrorText))), None)
        case Some(departure) =>
          match toIso(s.estimatedArrival)
          case None => CreateOutcome(s.(error := Some(Str(CreateErrorText))), None)
          case Some(arrival) =>
            var request := ShipmentRequest(FormatTimestamp(departure), FormatTimestamp(arrival), ids,
                                           s.totalWeight, s.totalArea, 1);
            match reply
            case Created =>
              CreateOutcome(s.(successMessage := CreateSuccessText, openDialog := false,
                               departureTime := "", estimatedArrival := ""), Some(request))
            case Refused(data) =>
              CreateOutcome(s.(error := Some(RefusalMessage(data))), Some(request))
  }

  /** With both times given, loaded parcels and valid dates the request is
      sent, listing the parcels' ParcelIDs one for one and in order, with
      status 1. */
  lemma RequestListsEveryParcel(s: RegionsState, toIso: string -> Option<string>, reply: ServerReply)
    requires s.departureTime != "" && s.estimatedArrival != ""
    requires s.parcels.Arr? && forall i :: 0 <= i < |s.parcels.items| ==> !Nullish(s.parcels.items[i])
    requires toIso(s.departureTime).Some? && toIso(s.estimatedArrival).Some?
    ensures var r := CreateShipment(s, toIso, reply);
            && r.sent.Some?
            && |r.sent.value.parcelIds| == |s.parcels.items|
            && (forall i :: 0 <= i < |s.parcels.items| ==> r.sent.value.parcelIds[i] == Prop(s.parcels.items[i], "ParcelID"))
            && r.sent.value.status == 1
  {
  }

  /** After the server creates the shipment the dialog is closed, both time
      fields are empty and the success message is set; after a refusal only
      the error changes, to the server's message when it has a truthy one. */
  lemma OutcomeOfSentRequest(s: RegionsState, toIso: string -> Option<string>, reply: ServerReply)
    requires CreateShipment(s, toIso, reply).sent.Some?
    ensures var r := CreateShipment(s, toIso, reply).state;
            reply.Created? ==>
              && !r.openDialog && r.departureTime == "" && r.estimatedArrival == ""
              && r.successMessage == CreateSuccessText && r.error == s.error
    ensures var r := CreateShipment(s, toIso, reply).state;
            reply.Refused? ==>
              && r == s.(error := Some(RefusalMessage(reply.responseData)))
              && (reply.responseData.Some? && !Nullish(reply.responseData.value)
                  && Truthy(Prop(reply.responseData.value, "message"))
                  ==> r.error == Some(Prop(reply.responseData.value, "message")))
  {
  }
}

=== FILE: reports_page.dfy ===
/**
 * The report page: the status and date-range filter over the shipments and
 * the statistics computed from the shipments that pass it.
 */
module ReportsPage {
  import opened JsValues
  import Sequences

  /** A shipment as the report reads it: its Status, its Departure_time, and
      the Weight of each of its parcels. */
  datatype ReportShipment = ReportShipment(status: JsValue, departureTime: JsValue, parcelWeights: seq<int>)

  /** What `new Date(x)` denotes: a time value in milliseconds, or an
      invalid date (whose time value is NaN). */
  datatype Instant = At(ms: int) | InvalidDate

  /** `a >= b` on dates compares time values; a comparison involving NaN is
      false. */
  predicate NotBefore(a: Instant, b: Instant) {
    a.At? && b.At? && a.ms >= b.ms
  }

  /** `a <= b` on dates. */
  predicate NotAfter(a: Instant, b: Instant) {
    a.At? && b.At? && a.ms <= b.ms
  }

  /** The two date inputs; the empty text means no bound. */
  datatype DateRange = DateRange(start: string, end: string)

  /** `selectedStatus === 'all' || shipment.Status === selectedStatus` */
  predicate StatusMatches(s: ReportShipment, selected: JsValue) {
    StrictEquals(selected, Str("all")) || StrictEquals(s.status, selected)
  }

  /** The date part of the callback; `toDate` stands for `new Date(...)`.
      A non-empty bound text makes a Date object, which is truthy even when
      invalid, so the comparison decides. */
  predicate DateMatches(s: ReportShipment, range: DateRange, toDate: JsValue -> Instant) {
    var shipmentDate := toDate(s.departureTime);
    (range.start == "" || NotBefore(shipmentDate, toDate(Str(range.start))))
    && (range.end == "" || NotAfter(shipmentDate, toDate(Str(range.end))))
  }

  predicate Admits(s: ReportShipment, selected: JsValue, range: DateRange, toDate: JsValue -> Instant) {
    StatusMatches(s, selected) && DateMatches(s, range, toDate)
  }

  /** `filteredShipments` */
  function FilterShipments(shipments: seq<ReportShipment>, selected: JsValue, range: DateRange,
                           toDate: JsValue -> Instant): (r: seq<ReportShipment>)
    ensures Sequences.IsSubsequence(r, shipments)
    ensures forall s :: s in r ==> Admits(s, selected, range, toDate)
    ensures forall i :: 0 <= i < |shipments| && Admits(shipments[i], selected, range, toDate) ==> shipments[i] in r
    ensures multiset(r) <= multiset(shipments)
    ensures forall s :: s in shipments && Admits(s, selected, range, toDate) ==> multiset(r)[s] == multiset(shipments)[s]
    ensures |r| == Sequences.CountWhere(shipments, s => Admits(s, selected, range, toDate))
  {
    Sequences.Filter(shipments, s => Admits(s, selected, range, toDate))
  }

  /** 'all' admits every status; any other selection admits exactly the
      shipments whose Status is `===` to it. */
  lemma StatusSelection(s: ReportShipment, selected: JsValue)
    ensures selected == Str("all") ==> StatusMatches(s, selected)
    ensures selected != Str("all") ==> (StatusMatches(s, selected) <==> StrictEquals(s.status, selected))
  {
  }

  /** For a valid departure date and valid bounds, each bound is optional and
      inclusive: start <= departure <= end. */
  lemma BoundsAreInclusive(s: ReportShipment, range: DateRange, toDate: JsValue -> Instant, t: int, lo: int, hi: int)
    requires toDate(s.departureTime) == At(t)
    requires range.start != "" ==> toDate(Str(range.start)) == At(lo)
    requires range.end != "" ==> toDate(Str(range.end)) == At(hi)
    ensures DateMatches(s, range, toDate) <==> (range.start == "" || lo <= t) && (range.end == "" || t <= hi)
  {
  }

  /** A shipment whose departure time is not a valid date fails every bound. */
  lemma InvalidDateFailsBounds(s: ReportShipment, range: DateRange, toDate: JsValue -> Instant)
    requires toDate(s.departureTime) == InvalidDate
    ensures DateMatches(s, range, toDate) <==> range.start == "" && range.end == ""
  {
  }

  /** With 'all' and both bounds empty nothing is filtered out. */
  lemma NoFilterKeepsAll(shipments: seq<ReportShipment>, toDate: JsValue -> Instant)
    ensures FilterShipments(shipments, Str("all"), DateRange("", ""), toDate) == shipments
  {
    Sequences.FilterKeepsAll(shipments, s => Admits(s, Str("all"), DateRange("", ""), toDate));
  }

  // ---------------------------------------------------------------------
  // statistics

  /** `averageWeight`: a number, or NaN for 0 / 0. */
  datatype Average = Average(value: real) | NotANumber

  datatype Statistics = Statistics(totalShipments: nat, totalParcels: nat, totalWeight: int, averageWeight: Average)

  /** `shipments.reduce((sum, s) => sum + s.parcels.length, 0)` */
  function ParcelCount(shipments: seq<ReportShipment>): nat {
    if |shipments| == 0 then 0
    else ParcelCount(shipments[..|shipments| - 1]) + |shipments[|shipments| - 1].parcelWeights|
  }

  /** The nested reduce summing every parcel's Weight. */
  function WeightTotal(shipments: seq<ReportShipment>): int {
    if |shipments| == 0 then 0
    else WeightTotal(shipments[..|shipments| - 1]) + Sequences.Sum(shipments[|shipments| - 1].parcelWeights)
  }

  /** The weights of all parcels of the shipments, shipment by shipment. */
  function AllWeights(shipments: seq<ReportShipment>): seq<int> {
    Sequences.Flatten(seq(|shipments|, i requires 0 <= i < |shipments| => shipments[i].parcelWeights))
  }

  lemma AllWeightsSnoc(shipments: seq<ReportShipment>)
    requires |shipments| > 0
    ensures AllWeights(shipments) == AllWeights(shipments[..|shipments| - 1]) + shipments[|shipments| - 1].parcelWeights
  {
    var p := shipments[..|shipments| - 1];
    var lists := seq(|shipments|, i requires 0 <= i < |shipments| => shipments[i].parcelWeights);
    assert lists[..|lists| - 1] == seq(|p|, i requires 0 <= i < |p| => p[i].parcelWeights);
  }

  /** The two reduces count and sum exactly the parcels of all shipments. */
  lemma {:induction false} TotalsOverAllParcels(shipments: seq<ReportShipment>)
    ensures ParcelCount(shipments) == |AllWeights(shipments)|
    ensures WeightTotal(shipments) == Sequences.Sum(AllWeights(shipments))
  {
    if |shipments| > 0 {
      var p := shipments[..|shipments| - 1];
      TotalsOverAllParcels(p);
      AllWeightsSnoc(shipments);
      Sequences.SumAppend(AllWeights(p), shipments[|shipments| - 1].parcelWeights);
    }
  }

  /** `statistics` over the filtered shipments. */
  function ComputeStatistics(filtered: seq<ReportShipment>): (st: Statistics)
    ensures st.totalShipments == |filtered|
    ensures st.totalParcels == |AllWeights(filtered)|
    ensures st.totalWeight == Sequences.Sum(AllWeights(filtered))
    ensures |filtered| == 0 ==> st.averageWeight == Average(0.0)
    ensures |filtered| > 0 && st.totalParcels == 0 ==> st.averageWeight == NotANumber
    ensures st.totalParcels > 0 ==> st.averageWeight == Average(st.totalWeight as real / st.totalParcels as real)
  {
    TotalsOverAllParcels(filtered);
    var parcels := ParcelCount(filtered);
    var weight := WeightTotal(filtered);
    var average :=
      if |filtered| == 0 then Average(0.0)
      else if parcels == 0 then NotANumber
      else Average(weight as real / parcels as real);
    Statistics(|filtered|, parcels, weight, average)
  }

  /** The statistics the page shows for a selection. */
  function Report(shipments: seq<ReportShipment>, selected: JsValue, range: DateRange,
                  toDate: JsValue -> Instant): (st: Statistics)
    ensures st.totalShipments <= |shipments|
    ensures st.totalShipments == Sequences.CountWhere(shipments, s => Admits(s, selected, range, toDate))
    ensures var kept := FilterShipments(shipments, selected, range, toDate);
            && st.totalParcels == |AllWeights(kept)|
            && st.totalWeight == Sequences.Sum(AllWeights(kept))
            && (st.totalShipments == 0 ==> st.averageWeight == Average(0.0))
            && (st.totalShipments > 0 && st.totalParcels == 0 ==> st.averageWeight == NotANumber)
            && (st.totalParcels > 0 ==> st.averageWeight == Average(st.totalWeight as real / st.totalParcels as real))
  {
    var filtered := FilterShipments(shipments, selected, range, toDate);
    SubsequenceNoLonger(filtered, shipments);
    ComputeStatistics(filtered)
  }

  lemma {:induction false} SubsequenceNoLonger<T>(ys: seq<T>, xs: seq<T>)
    requires Sequences.IsSubsequence(ys, xs)
    ensures |ys| <= |xs|
    decreases |xs|
  {
    if |ys| > 0 {
      if ys[0] == xs[0] && Sequences.IsSubsequence(ys[1..], xs[1..]) {
        SubsequenceNoLonger(ys[1..], xs[1..]);
      } else {
        SubsequenceNoLonger(ys, xs[1..]);
      }
    }
  }

  /** When every parcel weighs between lo and hi, so does the average. */
  lemma AverageWithinBounds(filtered: seq<ReportShipment>, lo: int, hi: int)
    requires forall i :: 0 <= i < |AllWeights(filtered)| ==> lo <= AllWeights(filtered)[i] <= hi
    requires ComputeStatistics(filtered).totalParcels > 0
    ensures var avg := ComputeStatistics(filtered).averageWeight;
            avg.Average? && lo as real <= avg.value <= hi as real
  {
    var w := AllWeights(filtered);
    var n := |w| as real;
    var total := Sequences.Sum(w) as real;
    Sequences.SumBounds(w, lo, hi);
    assert lo as real * n <= total <= hi as real * n;
    DivisionBounds(total, n, lo as real, hi as real);
  }

  lemma DivisionBounds(total: real, n: real, lo: real, hi: real)
    requires n > 0.0 && lo * n <= total <= hi * n
    ensures lo <= total / n <= hi
  {
    assert total / n * n == total;
  }
}

=== FILE: results.dfy ===
/** Optional values and fallible results used across the model. */
module Results {

  /** A value that may be absent. */
  datatype Option<+T> = None | Some(value: T)

  /** The outcome of a step that may throw: a value, or what was thrown. */
  datatype Result<+T, +E> = Ok(value: T) | Err(error: E)
}

=== FILE: sequences.dfy ===
/**
 * The array operations the pages use: `filter`, `slice`, and the sums
 * `reduce` computes.
 */
module Sequences {

  /** ys is xs with some elements left out and the rest kept in order. */
  predicate IsSubsequence<T(==)>(ys: seq<T>, xs: seq<T>)
    decreases |xs|
  {
    if |ys| == 0 then true
    else if |xs| == 0 then false
    else (ys[0] == xs[0] && IsSubsequence(ys[1..], xs[1..])) || IsSubsequence(ys, xs[1..])
  }

  /** The number of positions of xs whose element passes keep. */
  function CountWhere<T>(xs: seq<T>, keep: T -> bool): nat {
    if |xs| == 0 then 0 else (if keep(xs[0]) then 1 else 0) + CountWhere(xs[1..], keep)
  }

  /** `xs.filter(keep)`: every copy of a passing value is kept, every copy of
      a failing one is dropped, and the kept ones stay in order. */
  function Filter<T(==)>(xs: seq<T>, keep: T -> bool): (r: seq<T>)
    ensures IsSubsequence(r, xs)
    ensures forall x :: x in r ==> x in xs && keep(x)
    ensures forall i :: 0 <= i < |xs| && keep(xs[i]) ==> xs[i] in r
    ensures multiset(r) <= multiset(xs)
    ensures forall x :: x in xs && keep(x) ==> multiset(r)[x] == multiset(xs)[x]
    ensures |r| == CountWhere(xs, keep)
  {
    if |xs| == 0 then []
    else
      var rest := Filter(xs[1..], keep);
      var r := if keep(xs[0]) then [xs[0]] + rest else rest;
      FilterStepKeepsOrder(xs, keep, rest, r);
      FilterStepLength(xs, keep, rest, r);
      FilterStepFewerCopies(xs, keep, rest, r);
      FilterStepAllCopies(xs, keep, rest, r);
      r
  }

  /** The filter of xs is its head, when it passes, before the filter of
      its tail: order and membership carry over from the tail. */
  lemma FilterStepKeepsOrder<T>(xs: seq<T>, keep: T -> bool, rest: seq<T>, r: seq<T>)
    requires |xs| > 0
    requires IsSubsequence(rest, xs[1..])
    requires forall x :: x in rest ==> x in xs[1..] && keep(x)
    requires forall i :: 0 <= i < |xs[1..]| && keep(xs[1..][i]) ==> xs[1..][i] in rest
    requires r == if keep(xs[0]) then [xs[0]] + rest else rest
    ensures IsSubsequence(r, xs)
    ensures forall x :: x in r ==> x in xs && keep(x)
    ensures forall i :: 0 <= i < |xs| && keep(xs[i]) ==> xs[i] in r
  {
    if keep(xs[0]) {
      assert r[1..] == rest;
    }
    forall i | 0 < i < |xs| && keep(xs[i])
      ensures xs[i] in r
    {
      assert xs[i] == xs[1..][i - 1];
    }
  }

  /** ... and so do the length, ... */
  lemma FilterStepLength<T>(xs: seq<T>, keep: T -> bool, rest: seq<T>, r: seq<T>)
    requires |xs| > 0
    requires |rest| == CountWhere(xs[1..], keep)
    requires r == if keep(xs[0]) then [xs[0]] + rest else rest
    ensures |r| == CountWhere(xs, keep)
  {
  }

  /** ... the bound on copies, ... */
  lemma FilterStepFewerCopies<T>(xs: seq<T>, keep: T -> bool, rest: seq<T>, r: seq<T>)
    requires |xs| > 0
    requires multiset(rest) <= multiset(xs[1..])
    requires r == if keep(xs[0]) then [xs[0]] + rest else rest
    ensures multiset(r) <= multiset(xs)
  {
    assert xs == [xs[0]] + xs[1..];
    assert multiset(xs) == multiset{xs[0]} + multiset(xs[1..]);
  }

  /** ... and the copies of every passing value. */
  lemma FilterStepAllCopies<T>(xs: seq<T>, keep: T -> bool, rest: seq<T>, r: seq<T>)
    requires |xs| > 0
    requires multiset(rest) <= multiset(xs[1..])
    requires forall x :: x in xs[1..] && keep(x) ==> multiset(rest)[x] == multiset(xs[1..])[x]
    requires r == if keep(xs[0]) then [xs[0]] + rest else rest
    ensures forall x :: x in xs && keep(x) ==> multiset(r)[x] == multiset(xs)[x]
  {
    var head, tail := xs[0], xs[1..];
    assert xs == [head] + tail;
    forall x | x in xs && keep(x)
      ensures multiset(r)[x] == multiset(xs)[x]
    {
      assert multiset(xs)[x] == (if x == head then 1 else 0) + multiset(tail)[x];
      assert multiset(r)[x] == (if x == head then 1 else 0) + multiset(rest)[x];
      if x !in tail {
        assert multiset(tail)[x] == 0 && multiset(rest)[x] == 0;
      }
    }
  }

  /** Filtering with a test every element passes keeps the whole sequence. */
  lemma {:induction false} FilterKeepsAll<T>(xs: seq<T>, keep: T -> bool)
    requires forall i :: 0 <= i < |xs| ==> keep(xs[i])
    ensures Filter(xs, keep) == xs
  {
    if |xs| > 0 {
      FilterKeepsAll(xs[1..], keep);
    }
  }

  /** A position argument of `slice`, resolved against length n: a negative
      value counts from the end, and the result is clamped to 0..n. */
  function SliceBound(k: int, n: nat): (b: nat)
    ensures b <= n
    ensures 0 <= k ==> b == if k < n then k else n
  {
    if k < 0 then (if n + k < 0 then 0 else n + k) else if k < n then k else n
  }

  /** `xs.slice(start, end)`: the elements from the resolved start up to,
      not including, the resolved end; nothing when the end is not past the
      start. */
  function Slice<T>(xs: seq<T>, start: int, end: int): (r: seq<T>)
    ensures |r| <= |xs|
    ensures var from, to := SliceBound(start, |xs|), SliceBound(end, |xs|);
            |r| == (if from < to then to - from else 0)
            && forall i :: 0 <= i < |r| ==> r[i] == xs[from + i]
  {
    var from := SliceBound(start, |xs|);
    var to := SliceBound(end, |xs|);
    if from < to then xs[from..to] else []
  }

  /** Sum of a sequence of integers, left to right. */
  function Sum(xs: seq<int>): int {
    if |xs| == 0 then 0 else Sum(xs[..|xs| - 1]) + xs[|xs| - 1]
  }

  /** All elements of a sequence of sequences, in order. */
  function Flatten<T>(xss: seq<seq<T>>): seq<T> {
    if |xss| == 0 then [] else Flatten(xss[..|xss| - 1]) + xss[|xss| - 1]
  }

  lemma {:induction false} SumAppend(xs: seq<int>, ys: seq<int>)
    ensures Sum(xs + ys) == Sum(xs) + Sum(ys)
    decreases |ys|
  {
    if |ys| > 0 {
      assert (xs + ys)[..|xs + ys| - 1] == xs + ys[..|ys| - 1];
      SumAppend(xs, ys[..|ys| - 1]);
    } else {
      assert xs + ys == xs;
    }
  }

  /** Every element at least lo and at most hi bounds the sum by the count. */
  lemma {:induction false} SumBounds(xs: seq<int>, lo: int, hi: int)
    requires forall i :: 0 <= i < |xs| ==> lo <= xs[i] <= hi
    ensures lo * |xs| <= Sum(xs) <= hi * |xs|
  {
    if |xs| > 0 {
      var n := |xs| - 1;
      SumBounds(xs[..n], lo, hi);
      assert Sum(xs) == Sum(xs[..n]) + xs[n];
      assert lo <= xs[n] <= hi;
      OneMore(lo, n);
      OneMore(hi, n);
    }
  }

  lemma OneMore(k: int, n: nat)
    ensures k * (n + 1) == k * n + k
  {
  }
}

=== FILE: shipment_details_page.dfy ===
/**
 * The shipment detail page: its own status label and colour lookups (which
 * read StatusName, not AltName, and know a different set of names), and the
 * selection of the first record of the shipment response.
 */
module ShipmentDetailsPage {
  import opened Results
  import opened JsValues
  import opened StatusList
  import Decimal

  const InProgressText := "อยู่ระหว่างดำเนินการ"

  /** `getStatusText(status)`: a falsy status gives the in-progress text
      without consulting the list; otherwise the StatusName of the first
      entry whose StatusID is `=== status`, or the same text when none is. */
  function DetailsStatusText(status: JsValue, list: seq<StatusEntry>): (r: JsValue)
    ensures !Truthy(status) ==> r == Str(InProgressText)
    ensures Truthy(status) && NoMatch(list, status) ==> r == Str(InProgressText)
    ensures forall i :: Truthy(status) && FirstMatch(list, status, i) ==> r == list[i].statusName
  {
    if !Truthy(status) then Str(InProgressText)
    else
      match FindStatus(list, status)
      case Some(i) => list[i].statusName
      case None => Str(InProgressText)
  }

  /** The chip colour of each status name this page knows. */
  const DetailsColours: map<string, string> := map[
    "รอดำเนินการ" := "warning",
    "กำลังจัดส่ง" := "info",
    "จัดส่งสำเร็จ" := "success",
    "ยกเลิก" := "error"]

  /** The `switch (statusItem.StatusName)`: its cases compare with `===`, so
      only a string equal to one of the names selects a colour. */
  function NameColor(name: JsValue): (r: string)
    ensures name.Str? && name.s in DetailsColours ==> r == DetailsColours[name.s]
    ensures !(name.Str? && name.s in DetailsColours) ==> r == "default"
  {
    if name == Str("รอดำเนินการ") then "warning"
    else if name == Str("กำลังจัดส่ง") then "info"
    else if name == Str("จัดส่งสำเร็จ") then "success"
    else if name == Str("ยกเลิก") then "error"
    else "default"
  }

  /** `getStatusColor(status)`: 'default' for a falsy or unmatched status,
      otherwise the colour of the matched entry's StatusName. */
  function DetailsStatusColor(status: JsValue, list: seq<StatusEntry>): (r: string)
    ensures !Truthy(status) || NoMatch(list, status) ==> r == "default"
    ensures forall i :: Truthy(status) && FirstMatch(list, status, i) ==> r == NameColor(list[i].statusName)
  {
    if !Truthy(status) then "default"
    else
      match FindStatus(list, status)
      case None => "default"
      case Some(i) => NameColor(list[i].statusName)
  }

  /** The chip's colour is always the colour of the chip's label: the two
      lookups agree on every status, matched or not. */
  lemma ColourFollowsLabel(status: JsValue, list: seq<StatusEntry>)
    ensures DetailsStatusColor(status, list) == NameColor(DetailsStatusText(status, list))
  {
    assert InProgressText !in DetailsColours;
  }

  // ---------------------------------------------------------------------
  // fetchShipmentDetails

  /** The state the fetch touches; `editDeparture`/`editArrival` are the two
      fields of `editData`. */
  datatype DetailsState = DetailsState(
    shipment: JsValue,
    loading: bool,
    error: Option<string>,
    editDeparture: JsValue,
    editArrival: JsValue)

  const NotFoundText := "ไม่พบข้อมูลการจัดส่ง"
  const LoadErrorText := "เกิดข้อผิดพลาดในการโหลดข้อมูล"

  /** `v > 0` for the value a `length` property holds: numbers and booleans
      compare as numbers; a string, and an array through its joined text,
      compares as the number its text spells; undefined, null, NaN and
      plain objects (text "[object Object]") do not exceed 0. */
  predicate Positive(v: JsValue) {
    match v
    case Num(n) => n > 0
    case Bool(b) => b
    case Str(s) => Decimal.TextExceedsZero(s)
    case Arr(_) => Decimal.TextExceedsZero(ToString(v))
    case _ => false
  }

  /** A `length` that is the text of n, or the one-element array [n],
      exceeds 0 exactly when n does, as the number n itself does. */
  lemma LengthTextComparesAsNumber(n: int)
    ensures Positive(Str(Decimal.IntToDecimal(n))) <==> n > 0
    ensures Positive(Arr([Num(n)])) <==> n > 0
  {
    Decimal.IntegerTextExceedsZero(n);
    assert ToString(Num(n)) == Decimal.IntToDecimal(n);
    assert JoinItems([Num(n)]) == ToString(Num(n));
  }

  /** `response.data && response.data.length > 0` */
  predicate HasRecords(data: JsValue) {
    Truthy(data) && Positive(Prop(data, "length"))
  }

  /** One run of `fetchShipmentDetails` once the request settles. A found
      record is stored before its columns are read, so a null first record
      is stored and then makes the read throw. */
  function FetchDetails(s: DetailsState, reply: HttpReply): (r: DetailsState)
    ensures !r.loading
    ensures reply.RequestFailed? ==> r == s.(loading := false, error := Some(LoadErrorText))
    ensures reply.Received? && !HasRecords(reply.data) ==> r == s.(loading := false, error := Some(NotFoundText))
    ensures reply.Received? && HasRecords(reply.data) ==> r.shipment == Prop(reply.data, "0")
  {
    match reply
    case RequestFailed => s.(loading := false, error := Some(LoadErrorText))
    case Received(data) =>
      if !HasRecords(data) then s.(loading := false, error := Some(NotFoundText))
      else
        var first := Prop(data, "0");
        if Nullish(first) then s.(shipment := first, loading := false, error := Some(LoadErrorText))
        else
          s.(shipment := first, loading := false,
             editDeparture := Prop(first, "Departure_time"),
             editArrival := Prop(first, "Estimated_arrival"))
  }

  /** A non-empty array of records selects element 0, copies its
      Departure_time and Estimated_arrival into the edit fields, and leaves
      the error as it was. */
  lemma FirstRecordSelected(s: DetailsState, rows: seq<JsValue>)
    requires |rows| > 0 && !Nullish(rows[0])
    ensures FetchDetails(s, Received(Arr(rows))) ==
            s.(shipment := rows[0], loading := false,
               editDeparture := Prop(rows[0], "Departure_time"),
               editArrival := Prop(rows[0], "Estimated_arrival"))
  {
    assert Decimal.NatToDecimal(0) == "0";
    PropOfIndex(rows, 0);
  }

  /** An empty array of records is "not found", and the shown shipment and
      edit fields stay as they were. */
  lemma EmptyResultNotFound(s: DetailsState)
    ensures FetchDetails(s, Received(Arr([]))) == s.(loading := false, error := Some(NotFoundText))
  {
  }
}

=== FILE: shipments_page.dfy ===
/**
 * The shipment list page: the `reduce` that groups the flat joined rows of
 * `/all-shipment` into one entry per ShipmentID, and the status chip's label
 * and colour.
 */
module ShipmentsPage {
  import opened Results
  import opened JsValues
  import opened StatusList

  /** The parcel columns copied from a row into its group. */
  datatype ParcelSummary = ParcelSummary(
    parcelId: JsValue,      // ParcelID
    weight: JsValue,        // Weight
    area: JsValue,          // Area
    address: JsValue,       // Address
    subdistrict: JsValue,   // Subdistrict
    district: JsValue,      // District
    province: JsValue,      // Province
    postalCode: JsValue,    // Postal_code
    region: JsValue,        // Region
    statusName: JsValue)    // AltName

  /** One shipment: header columns of its first row, and its parcels. */
  datatype ShipmentGroup = ShipmentGroup(
    shipmentId: JsValue,        // ShipmentID
    departureTime: JsValue,     // Departure_time
    estimatedArrival: JsValue,  // Estimated_time (not Estimated_arrival)
    status: JsValue,            // Status
    parcels: seq<ParcelSummary>)

  /** The accumulator object, keyed by ShipmentID as a property key. */
  type Groups = map<string, ShipmentGroup>

  /** The properties an object literal `{}` inherits from Object.prototype. */
  const InheritedNames: set<string> := {
    "constructor", "hasOwnProperty", "isPrototypeOf", "propertyIsEnumerable",
    "toLocaleString", "toString", "valueOf", "__proto__",
    "__defineGetter__", "__defineSetter__", "__lookupGetter__", "__lookupSetter__"
  }

  /** `acc[item.ShipmentID]` looks up the ShipmentID converted to text. */
  function GroupKey(row: JsValue): string
    requires !Nullish(row)
  {
    ToString(Prop(row, "ShipmentID"))
  }

  function Header(row: JsValue): ShipmentGroup
    requires !Nullish(row)
  {
    ShipmentGroup(Prop(row, "ShipmentID"), Prop(row, "Departure_time"),
                  Prop(row, "Estimated_time"), Prop(row, "Status"), [])
  }

  function Summary(row: JsValue): ParcelSummary
    requires !Nullish(row)
  {
    ParcelSummary(Prop(row, "ParcelID"), Prop(row, "Weight"), Prop(row, "Area"),
                  Prop(row, "Address"), Prop(row, "Subdistrict"), Prop(row, "District"),
                  Prop(row, "Province"), Prop(row, "Postal_code"), Prop(row, "Region"),
                  Prop(row, "AltName"))
  }

  /** One call of the reducer. Reading a property of a null row throws. A
      key naming an inherited property finds a truthy value there, skips the
      creation, and `.parcels.push` on it throws. */
  function AddRow(acc: Groups, row: JsValue): Result<Groups, Thrown> {
    if Nullish(row) then Err(TypeError)
    else if GroupKey(row) in InheritedNames then Err(TypeError)
    else Ok(Push(acc, row))
  }

  /** `if (!acc[key]) acc[key] = header; acc[key].parcels.push(summary)` */
  function Push(acc: Groups, row: JsValue): Groups
    requires !Nullish(row)
  {
    var key := GroupKey(row);
    var group := if key in acc then acc[key] else Header(row);
    acc[key := group.(parcels := group.parcels + [Summary(row)])]
  }

  /** `rows.reduce(AddRow, {})`; the first exception ends the fold. */
  function GroupRows(rows: seq<JsValue>): Result<Groups, Thrown> {
    if |rows| == 0 then Ok(map[])
    else
      match GroupRows(rows[..|rows| - 1])
      case Err(e) => Err(e)
      case Ok(acc) => AddRow(acc, rows[|rows| - 1])
  }

  /** `response.data.reduce(...)`: a body that is not an array has no reduce. */
  function GroupShipments(data: JsValue): (r: Result<Groups, Thrown>)
    ensures !data.Arr? ==> r == Err(TypeError)
  {
    if data.Arr? then GroupRows(data.items) else Err(TypeError)
  }

  // ---------------------------------------------------------------------
  // Reference description of the grouping, independent of the fold.

  predicate Groupable(row: JsValue) {
    !Nullish(row) && GroupKey(row) !in InheritedNames
  }

  predicate AllGroupable(rows: seq<JsValue>) {
    forall i :: 0 <= i < |rows| ==> Groupable(rows[i])
  }

  /** The shipment keys occurring among the rows. */
  function KeysOf(rows: seq<JsValue>): set<string>
    requires AllGroupable(rows)
  {
    set i | 0 <= i < |rows| :: GroupKey(rows[i])
  }

  /** The rows bearing key, in input order. */
  function RowsWithKey(rows: seq<JsValue>, key: string): (r: seq<JsValue>)
    requires AllGroupable(rows)
    ensures AllGroupable(r)
    ensures forall i :: 0 <= i < |r| ==> GroupKey(r[i]) == key
  {
    if |rows| == 0 then []
    else
      var last := rows[|rows| - 1];
      RowsWithKey(rows[..|rows| - 1], key) + (if GroupKey(last) == key then [last] else [])
  }

  /** The index of the first row bearing key. */
  function FirstWithKey(rows: seq<JsValue>, key: string): (i: nat)
    requires AllGroupable(rows) && key in KeysOf(rows)
    ensures i < |rows| && GroupKey(rows[i]) == key
    ensures forall j :: 0 <= j < i ==> GroupKey(rows[j]) != key
  {
    var p := rows[..|rows| - 1];
    if key in KeysOf(p) then
      var i := FirstWithKey(p, key);
      assert forall j :: 0 <= j < i ==> rows[j] == p[j];
      i
    else
      assert forall j :: 0 <= j < |p| ==> GroupKey(p[j]) in KeysOf(p);
      |rows| - 1
  }

  function Summaries(rows: seq<JsValue>): (r: seq<ParcelSummary>)
    requires forall i :: 0 <= i < |rows| ==> !Nullish(rows[i])
    ensures |r| == |rows|
    ensures forall i :: 0 <= i < |rows| ==> r[i] == Summary(rows[i])
  {
    if |rows| == 0 then [] else Summaries(rows[..|rows| - 1]) + [Summary(rows[|rows| - 1])]
  }

  /** One group per key: the header of the key's first row, and the
      summaries of all rows with the key in input order. */
  function Reference(rows: seq<JsValue>): Groups
    requires AllGroupable(rows)
  {
    map key | key in KeysOf(rows) ::
      Header(rows[FirstWithKey(rows, key)]).(parcels := Summaries(RowsWithKey(rows, key)))
  }

  lemma AbsentKeyHasNoRows(rows: seq<JsValue>, key: string)
    requires AllGroupable(rows) && key !in KeysOf(rows)
    ensures RowsWithKey(rows, key) == []
  {
    if |rows| > 0 {
      var p := rows[..|rows| - 1];
      assert KeysOf(p) <= KeysOf(rows) by {
        forall k | k in KeysOf(p) ensures k in KeysOf(rows) {
          var i :| 0 <= i < |p| && GroupKey(p[i]) == k;
          assert rows[i] == p[i];
        }
      }
      AbsentKeyHasNoRows(p, key);
      assert GroupKey(rows[|rows| - 1]) in KeysOf(rows);
    }
  }

  lemma KeysOfSnoc(rows: seq<JsValue>)
    requires |rows| > 0 && AllGroupable(rows)
    ensures AllGroupable(rows[..|rows| - 1])
    ensures KeysOf(rows) == KeysOf(rows[..|rows| - 1]) + {GroupKey(rows[|rows| - 1])}
  {
    var p := rows[..|rows| - 1];
    var key := GroupKey(rows[|rows| - 1]);
    assert AllGroupable(p);
    forall k | k in KeysOf(rows) ensures k in KeysOf(p) + {key} {
      var i :| 0 <= i < |rows| && GroupKey(rows[i]) == k;
      if i < |p| {
        assert rows[i] == p[i];
      }
    }
    forall k | k in KeysOf(p) ensures k in KeysOf(rows) {
      var i :| 0 <= i < |p| && GroupKey(p[i]) == k;
      assert rows[i] == p[i];
    }
  }

  /** The group a key already had is kept, with the new row's parcel added
      when the row bears that key. */
  lemma {:induction false} GroupOfEarlierKey(rows: seq<JsValue>, k: string)
    requires |rows| > 0 && AllGroupable(rows)
    requires AllGroupable(rows[..|rows| - 1]) && k in KeysOf(rows[..|rows| - 1])
    ensures k in KeysOf(rows)
    ensures Reference(rows)[k] ==
            var g := Reference(rows[..|rows| - 1])[k];
            if GroupKey(rows[|rows| - 1]) == k then g.(parcels := g.parcels + [Summary(rows[|rows| - 1])]) else g
  {
    var p := rows[..|rows| - 1];
    KeysOfSnoc(rows);
    var f := FirstWithKey(p, k);
    assert FirstWithKey(rows, k) == f;
    assert rows[f] == p[f];
    var row := rows[|rows| - 1];
    if GroupKey(row) == k {
      assert RowsWithKey(rows, k) == RowsWithKey(p, k) + [row];
    } else {
      assert RowsWithKey(rows, k) == RowsWithKey(p, k);
    }
  }

  /** A key seen for the first time gets the new row's header and parcel. */
  lemma {:induction false} GroupOfNewKey(rows: seq<JsValue>)
    requires |rows| > 0 && AllGroupable(rows)
    requires AllGroupable(rows[..|rows| - 1])
    requires GroupKey(rows[|rows| - 1]) !in KeysOf(rows[..|rows| - 1])
    ensures GroupKey(rows[|rows| - 1]) in KeysOf(rows)
    ensures Reference(rows)[GroupKey(rows[|rows| - 1])] ==
            Header(rows[|rows| - 1]).(parcels := [Summary(rows[|rows| - 1])])
  {
    var p := rows[..|rows| - 1];
    var row := rows[|rows| - 1];
    var key := GroupKey(row);
    KeysOfSnoc(rows);
    AbsentKeyHasNoRows(p, key);
    assert RowsWithKey(rows, key) == [row];
    assert FirstWithKey(rows, key) == |rows| - 1;
  }

  lemma SameGroups(a: Groups, b: Groups)
    requires a.Keys == b.Keys
    requires forall k :: k in a ==> a[k] == b[k]
    ensures a == b
  {
  }

  lemma ReferenceKeys(rows: seq<JsValue>)
    requires AllGroupable(rows)
    ensures Reference(rows).Keys == KeysOf(rows)
  {
  }

  /** What Push leaves under each key: the row's key gains the row's parcel,
      in a new group headed by the row when the key was absent; every other
      group is unchanged. */
  lemma PushAt(acc: Groups, row: JsValue, k: string)
    requires !Nullish(row)
    ensures k in Push(acc, row) <==> k in acc || k == GroupKey(row)
    ensures k == GroupKey(row) && k in acc ==>
              Push(acc, row)[k] == acc[k].(parcels := acc[k].parcels + [Summary(row)])
    ensures k == GroupKey(row) && k !in acc ==>
              Push(acc, row)[k] == Header(row).(parcels := [Summary(row)])
    ensures k != GroupKey(row) && k in acc ==> Push(acc, row)[k] == acc[k]
  {
    assert Header(row).parcels + [Summary(row)] == [Summary(row)];
  }

  /** The group Push leaves under key k, after one more row, is the
      reference group of k for the longer sequence. */
  lemma PushedGroup(rows: seq<JsValue>, k: string)
    requires |rows| > 0 && AllGroupable(rows)
    requires AllGroupable(rows[..|rows| - 1])
    requires k in KeysOf(rows[..|rows| - 1]) || k == GroupKey(rows[|rows| - 1])
    ensures k in Reference(rows)
    ensures k in Push(Reference(rows[..|rows| - 1]), rows[|rows| - 1])
    ensures Push(Reference(rows[..|rows| - 1]), rows[|rows| - 1])[k] == Reference(rows)[k]
  {
    var p := rows[..|rows| - 1];
    ReferenceKeys(p);
    ReferenceKeys(rows);
    KeysOfSnoc(rows);
    PushAt(Reference(p), rows[|rows| - 1], k);
    if k in KeysOf(p) {
      GroupOfEarlierKey(rows, k);
    } else {
      GroupOfNewKey(rows);
    }
  }

  /** Pushing one groupable row onto the reference grouping of the rows
      before it gives the reference grouping of the longer sequence. */
  lemma PushExtendsReference(rows: seq<JsValue>)
    requires |rows| > 0 && AllGroupable(rows)
    requires AllGroupable(rows[..|rows| - 1])
    ensures Push(Reference(rows[..|rows| - 1]), rows[|rows| - 1]) == Reference(rows)
  {
    var p := rows[..|rows| - 1];
    var updated := Push(Reference(p), rows[|rows| - 1]);
    KeysOfSnoc(rows);
    ReferenceKeys(p);
    ReferenceKeys(rows);
    assert updated.Keys == Reference(rows).Keys;
    forall k | k in updated
      ensures updated[k] == Reference(rows)[k]
    {
      PushedGroup(rows, k);
    }
    SameGroups(updated, Reference(rows));
  }

  /** Adding one groupable row to the reference grouping of the rows before
      it gives the reference grouping of the longer sequence. */
  lemma AddRowExtendsReference(rows: seq<JsValue>)
    requires |rows| > 0 && AllGroupable(rows)
    ensures AllGroupable(rows[..|rows| - 1])
    ensures AddRow(Reference(rows[..|rows| - 1]), rows[|rows| - 1]) == Ok(Reference(rows))
  {
    KeysOfSnoc(rows);
    PushExtendsReference(rows);
  }

  /** The fold agrees with the reference grouping, and throws exactly when
      some row is null or undefined or carries an inherited name as key. */
  lemma {:induction false} GroupRowsIsReference(rows: seq<JsValue>)
    ensures AllGroupable(rows) ==> GroupRows(rows) == Ok(Reference(rows))
    ensures !AllGroupable(rows) ==> GroupRows(rows) == Err(TypeError)
  {
    if |rows| > 0 {
      var p := rows[..|rows| - 1];
      GroupRowsIsReference(p);
      if AllGroupable(rows) {
        assert AllGroupable(p);
        AddRowExtendsReference(rows);
      } else if AllGroupable(p) {
        assert !Groupable(rows[|rows| - 1]);
      }
    } else {
      assert Reference(rows) == map[];
    }
  }

  // ---------------------------------------------------------------------
  // The properties of the grouping.

  /** The reduce succeeds exactly when every row can be grouped, and then
      yields one group per distinct ShipmentID. */
  lemma OneGroupPerShipment(rows: seq<JsValue>)
    ensures GroupRows(rows).Ok? <==> AllGroupable(rows)
    ensures GroupRows(rows).Ok? ==> GroupRows(rows).value.Keys == KeysOf(rows)
  {
    GroupRowsIsReference(rows);
  }

  /** A group's header columns come from the first row with its key; later
      rows never overwrite them. */
  lemma HeaderFromFirstRow(rows: seq<JsValue>, key: string, i: nat)
    requires GroupRows(rows).Ok? && key in GroupRows(rows).value
    requires i < |rows| && !Nullish(rows[i]) && GroupKey(rows[i]) == key
    requires forall j :: 0 <= j < i ==> !Nullish(rows[j]) && GroupKey(rows[j]) != key
    ensures GroupRows(rows).value[key].shipmentId == Prop(rows[i], "ShipmentID")
    ensures GroupRows(rows).value[key].departureTime == Prop(rows[i], "Departure_time")
    ensures GroupRows(rows).value[key].estimatedArrival == Prop(rows[i], "Estimated_time")
    ensures GroupRows(rows).value[key].status == Prop(rows[i], "Status")
  {
    OneGroupPerShipment(rows);
    GroupRowsIsReference(rows);
    var f := FirstWithKey(rows, key);
    assert f == i;
  }

  /** A group's parcels are the rows with its key, in input order. */
  lemma ParcelsInRowOrder(rows: seq<JsValue>, key: string)
    requires GroupRows(rows).Ok? && key in GroupRows(rows).value
    ensures AllGroupable(rows)
    ensures GroupRows(rows).value[key].parcels == Summaries(RowsWithKey(rows, key))
  {
    OneGroupPerShipment(rows);
    GroupRowsIsReference(rows);
  }

  lemma {:induction false} KeyHasRows(rows: seq<JsValue>, key: string)
    requires AllGroupable(rows) && key in KeysOf(rows)
    ensures |RowsWithKey(rows, key)| > 0
  {
    var p := rows[..|rows| - 1];
    if GroupKey(rows[|rows| - 1]) != key {
      var i :| 0 <= i < |rows| && GroupKey(rows[i]) == key;
      assert rows[i] == p[i];
      assert key in KeysOf(p);
      KeyHasRows(p, key);
    }
  }

  /** No group is empty. */
  lemma NoEmptyGroup(rows: seq<JsValue>)
    requires GroupRows(rows).Ok?
    ensures forall key :: key in GroupRows(rows).value ==> |GroupRows(rows).value[key].parcels| > 0
  {
    OneGroupPerShipment(rows);
    GroupRowsIsReference(rows);
    forall key | key in GroupRows(rows).value
      ensures |GroupRows(rows).value[key].parcels| > 0
    {
      KeyHasRows(rows, key);
    }
  }

  // ---------------------------------------------------------------------
  // Counting: every row lands in exactly one group.

  predicate Distinct(keys: seq<string>) {
    forall i, j :: 0 <= i < j < |keys| ==> keys[i] != keys[j]
  }

  /** The shipment keys in order of first appearance: the insertion order
      of the accumulator's properties. */
  function DistinctKeys(rows: seq<JsValue>): (keys: seq<string>)
    requires AllGroupable(rows)
    ensures Distinct(keys)
    ensures forall k :: k in keys <==> k in KeysOf(rows)
  {
    if |rows| == 0 then []
    else
      var p := rows[..|rows| - 1];
      var key := GroupKey(rows[|rows| - 1]);
      var keys := DistinctKeys(p);
      assert forall k :: k in KeysOf(rows) <==> k in KeysOf(p) || k == key by {
        forall k | k in KeysOf(rows) ensures k in KeysOf(p) || k == key {
          var i :| 0 <= i < |rows| && GroupKey(rows[i]) == k;
          if i < |p| { assert rows[i] == p[i]; }
        }
        forall k | k in KeysOf(p) ensures k in KeysOf(rows) {
          var i :| 0 <= i < |p| && GroupKey(p[i]) == k;
          assert rows[i] == p[i];
        }
      }
      if key in keys then keys else keys + [key]
  }

  /** The keys are listed in the order in which their shipments first
      appear among the rows. */
  lemma {:induction false} DistinctKeysInFirstAppearanceOrder(rows: seq<JsValue>)
    requires AllGroupable(rows)
    ensures forall i, j :: 0 <= i < j < |DistinctKeys(rows)| ==>
              FirstWithKey(rows, DistinctKeys(rows)[i]) < FirstWithKey(rows, DistinctKeys(rows)[j])
  {
    if |rows| > 0 {
      var p := rows[..|rows| - 1];
      var keys := DistinctKeys(p);
      DistinctKeysInFirstAppearanceOrder(p);
      FirstWithKeyOfPrefix(rows);
      if GroupKey(rows[|rows| - 1]) !in keys {
        NewKeyComesLast(rows);
      }
    }
  }

  /** A key already among the rows before the last keeps its first row. */
  lemma FirstWithKeyOfPrefix(rows: seq<JsValue>)
    requires AllGroupable(rows) && |rows| > 0
    ensures forall k :: k in KeysOf(rows[..|rows| - 1]) ==>
              k in KeysOf(rows) && FirstWithKey(rows, k) == FirstWithKey(rows[..|rows| - 1], k)
  {
    var p := rows[..|rows| - 1];
    forall k | k in KeysOf(p)
      ensures k in KeysOf(rows)
    {
      var i :| 0 <= i < |p| && GroupKey(p[i]) == k;
      assert rows[i] == p[i];
    }
  }

  /** When the last row brings a new key, that key is listed last and its
      first row comes after the first row of every earlier key. */
  lemma NewKeyComesLast(rows: seq<JsValue>)
    requires AllGroupable(rows) && |rows| > 0
    requires GroupKey(rows[|rows| - 1]) !in DistinctKeys(rows[..|rows| - 1])
    requires var p := rows[..|rows| - 1];
             forall i, j :: 0 <= i < j < |DistinctKeys(p)| ==>
               FirstWithKey(p, DistinctKeys(p)[i]) < FirstWithKey(p, DistinctKeys(p)[j])
    requires forall k :: k in KeysOf(rows[..|rows| - 1]) ==>
               k in KeysOf(rows) && FirstWithKey(rows, k) == FirstWithKey(rows[..|rows| - 1], k)
    ensures forall i, j :: 0 <= i < j < |DistinctKeys(rows)| ==>
              FirstWithKey(rows, DistinctKeys(rows)[i]) < FirstWithKey(rows, DistinctKeys(rows)[j])
  {
    var p := rows[..|rows| - 1];
    var key := GroupKey(rows[|rows| - 1]);
    var keys := DistinctKeys(p);
    var all := keys + [key];
    assert DistinctKeys(rows) == all;
    assert key !in KeysOf(p);
    assert FirstWithKey(rows, key) == |p|;
    forall i, j | 0 <= i < j < |all|
      ensures FirstWithKey(rows, all[i]) < FirstWithKey(rows, all[j])
    {
      assert all[i] == keys[i] && all[i] in KeysOf(p);
      if j == |keys| {
        assert FirstWithKey(p, all[i]) < |p|;
      } else {
        assert all[j] == keys[j] && all[j] in KeysOf(p);
      }
    }
  }

  /** The number of parcels over the groups listed in keys. */
  function ParcelTotal(groups: Groups, keys: seq<string>): nat
    requires forall i :: 0 <= i < |keys| ==> keys[i] in groups
  {
    if |keys| == 0 then 0
    else ParcelTotal(groups, keys[..|keys| - 1]) + |groups[keys[|keys| - 1]].parcels|
  }

  /** The number of rows bearing the keys listed. */
  function RowTotal(rows: seq<JsValue>, keys: seq<string>): nat
    requires AllGroupable(rows)
  {
    if |keys| == 0 then 0
    else RowTotal(rows, keys[..|keys| - 1]) + |RowsWithKey(rows, keys[|keys| - 1])|
  }

  /** Appending one row adds one to the total of any distinct key list that
      contains its key, and nothing otherwise. */
  lemma {:induction false} RowTotalStep(rows: seq<JsValue>, keys: seq<string>)
    requires |rows| > 0 && AllGroupable(rows) && Distinct(keys)
    ensures RowTotal(rows, keys) ==
            RowTotal(rows[..|rows| - 1], keys) + (if GroupKey(rows[|rows| - 1]) in keys then 1 else 0)
  {
    if |keys| > 0 {
      var init := keys[..|keys| - 1];
      assert Distinct(init);
      RowTotalStep(rows, init);
      var last := keys[|keys| - 1];
      assert GroupKey(rows[|rows| - 1]) in keys <==> GroupKey(rows[|rows| - 1]) in init || GroupKey(rows[|rows| - 1]) == last;
      assert last !in init;
    }
  }

  lemma {:induction false} RowTotalOfAbsentKey(rows: seq<JsValue>, keys: seq<string>, key: string)
    requires AllGroupable(rows) && key !in KeysOf(rows)
    ensures RowTotal(rows, keys + [key]) == RowTotal(rows, keys)
  {
    AbsentKeyHasNoRows(rows, key);
    assert (keys + [key])[..|keys|] == keys;
  }

  lemma {:induction false} EveryRowCounted(rows: seq<JsValue>)
    requires AllGroupable(rows)
    ensures RowTotal(rows, DistinctKeys(rows)) == |rows|
  {
    if |rows| > 0 {
      var p := rows[..|rows| - 1];
      var key := GroupKey(rows[|rows| - 1]);
      assert AllGroupable(p);
      EveryRowCounted(p);
      var keys := DistinctKeys(p);
      if key in keys {
        RowTotalStep(rows, keys);
      } else {
        RowTotalStep(rows, keys);
        assert key !in KeysOf(p);
        RowTotalOfAbsentKey(p, keys, key);
        assert (keys + [key])[..|keys|] == keys;
        assert RowTotal(rows, keys + [key]) == RowTotal(rows, keys) + |RowsWithKey(rows, key)|;
        assert RowsWithKey(rows, key) == RowsWithKey(p, key) + [rows[|rows| - 1]];
        AbsentKeyHasNoRows(p, key);
      }
    }
  }

  lemma {:induction false} ParcelTotalIsRowTotal(rows: seq<JsValue>, keys: seq<string>)
    requires AllGroupable(rows)
    requires forall i :: 0 <= i < |keys| ==> keys[i] in KeysOf(rows)
    ensures forall i :: 0 <= i < |keys| ==> keys[i] in Reference(rows)
    ensures ParcelTotal(Reference(rows), keys) == RowTotal(rows, keys)
  {
    if |keys| > 0 {
      ParcelTotalIsRowTotal(rows, keys[..|keys| - 1]);
    }
  }

  /** The parcel counts of all groups add up to the number of rows. */
  lemma ParcelCountsSumToRows(rows: seq<JsValue>)
    requires GroupRows(rows).Ok?
    ensures AllGroupable(rows)
    ensures forall k :: k in DistinctKeys(rows) <==> k in GroupRows(rows).value
    ensures ParcelTotal(GroupRows(rows).value, DistinctKeys(rows)) == |rows|
  {
    OneGroupPerShipment(rows);
    GroupRowsIsReference(rows);
    var keys := DistinctKeys(rows);
    ParcelTotalIsRowTotal(rows, keys);
    EveryRowCounted(rows);
  }

  // ---------------------------------------------------------------------
  // The status chip: `getStatusText` and `getStatusColor`.

  const PendingText := "รอดำเนินการ"

  /** `getStatusText(status)`: the AltName of the first status entry whose
      StatusID is `=== status`; the pending text when status is falsy or
      nothing matches. */
  function StatusText(status: JsValue, list: seq<StatusEntry>): (r: JsValue)
    ensures !Truthy(status) || NoMatch(list, status) ==> r == Str(PendingText)
    ensures forall i :: Truthy(status) && FirstMatch(list, status, i) ==> r == list[i].altName
  {
    if !Truthy(status) then Str(PendingText)
    else
      match FindStatus(list, status)
      case Some(i) => list[i].altName
      case None => Str(PendingText)
  }

  /** The chip colour of each status name the page knows. */
  const StatusColours: map<string, string> := map[
    "เริ่มจัดเตรียมสินค้า" := "warning",
    "ออกจากสำนักงานใหญ่" := "info",
    "ถึงศูนย์กระจายสินค้า" := "info",
    "ออกจากศูนย์กระจายสินค้า" := "info",
    "เสร็จสิ้น" := "success",
    "ยกเลิก" := "error"
  ]

  /** `getStatusColor(statusName)`: the colour of a known name, 'default'
      for a falsy or any other value. */
  function StatusColor(statusName: JsValue): (r: string)
    ensures statusName.Str? && statusName.s in StatusColours ==> r == StatusColours[statusName.s]
    ensures !(statusName.Str? && statusName.s in StatusColours) ==> r == "default"
  {
    if !Truthy(statusName) then "default"
    else
      match statusName
      case Str(name) =>
        if name == "เริ่มจัดเตรียมสินค้า" then "warning"
        else if name == "ออกจากสำนักงานใหญ่" then "info"
        else if name == "ถึงศูนย์กระจายสินค้า" then "info"
        else if name == "ออกจากศูนย์กระจายสินค้า" then "info"
        else if name == "เสร็จสิ้น" then "success"
        else if name == "ยกเลิก" then "error"
        else "default"
      case _ => "default"
  }

  /** The chip shows `getStatusColor(getStatusText(status))`: a falsy or
      unknown status gets the pending label, which has no colour of its own. */
  lemma PendingChipIsDefault(status: JsValue, list: seq<StatusEntry>)
    requires !Truthy(status) || NoMatch(list, status)
    ensures StatusText(status, list) == Str(PendingText)
    ensures StatusColor(StatusText(status, list)) == "default"
  {
    assert PendingText !in StatusColours;
  }
}

=== FILE: status_feed.dfy ===
/**
 * The status list component: it fetches a JSON body, coerces it into a
 * list of statuses, and turns every failure on the way into its error
 * state.
 */
module StatusFeed {
  import opened Results
  import opened JsValues

  /** `statusArray`: an array body as it is; a body whose `data` property
      is an array, that array; any other object, a one-element list; a
      string, number or boolean, the empty list. `data.data` is read before
      the `typeof` test, so a null body throws there. */
  function Normalize(data: JsValue): (r: Result<seq<JsValue>, Thrown>)
    ensures data.Arr? ==> r == Ok(data.items)
    ensures Nullish(data) ==> r == Err(TypeError)
    ensures data.Obj? && Get(data.props, "data").Arr? ==> r == Ok(Get(data.props, "data").items)
    ensures data.Obj? && !Get(data.props, "data").Arr? ==> r == Ok([data])
    ensures data.Str? || data.Num? || data.NaN? || data.Bool? ==> r == Ok([])
  {
    if data.Arr? then Ok(data.items)
    else if Nullish(data) then Err(TypeError)
    else
      var inner := Prop(data, "data");
      if Truthy(inner) && inner.Arr? then Ok(inner.items)
      else if IsObjectType(data) then Ok([data])
      else Ok([])
  }

  /** Only a null or undefined body makes the coercion throw. */
  lemma NormalizeFailsOnlyOnNull(data: JsValue)
    ensures Normalize(data).Err? <==> Nullish(data)
  {
  }

  /** How the request ended: `fetch` rejected, or a response arrived with
      its `ok` flag and its body parsed as JSON (`None` when it is not
      JSON, so `res.json()` rejects). */
  datatype FetchOutcome = FetchRejected | Response(ok: bool, body: Option<JsValue>)

  /** What the catch receives. */
  datatype FeedError =
    | FetchFailed               // fetch itself rejected
    | NotOk                     // `throw new Error('Network response was not ok')`
    | NotJson                   // `res.json()` rejected
    | NormaliseFailed(e: Thrown) // `data.data` on a null body

  datatype FeedState = FeedState(statuses: seq<JsValue>, isLoading: bool, error: Option<FeedError>)

  const InitialFeed := FeedState([], true, None)

  /** The message the component shows for an error, where the program fixes
      it; the others carry the engine's own wording. */
  function ErrorMessage(e: FeedError): (m: Option<string>)
    ensures m.Some? <==> e.NotOk?
    ensures e.NotOk? ==> m == Some("Network response was not ok")
  {
    if e.NotOk? then Some("Network response was not ok") else None
  }

  /** The promise chain: a failed fetch, a response that is not ok, a body
      that is not JSON, or a throwing coercion all end in the catch, which
      sets the error and clears loading; otherwise the coerced list is
      stored and loading cleared. */
  function LoadFeed(s: FeedState, outcome: FetchOutcome): (r: FeedState)
    ensures !r.isLoading
    ensures outcome.FetchRejected? ==> r == s.(isLoading := false, error := Some(FetchFailed))
    ensures outcome.Response? && !outcome.ok ==> r == s.(isLoading := false, error := Some(NotOk))
    ensures outcome.Response? && outcome.ok && outcome.body.None? ==> r == s.(isLoading := false, error := Some(NotJson))
    ensures outcome.Response? && outcome.ok && outcome.body.Some? && Normalize(outcome.body.value).Err? ==>
              r == s.(isLoading := false, error := Some(NormaliseFailed(Normalize(outcome.body.value).error)))
    ensures outcome.Response? && outcome.ok && outcome.body.Some? && Normalize(outcome.body.value).Ok? ==>
              r == s.(statuses := Normalize(outcome.body.value).value, isLoading := false)
    ensures r.statuses != s.statuses ==> outcome.Response? && outcome.ok && outcome.body.Some?
  {
    match outcome
    case FetchRejected => s.(isLoading := false, error := Some(FetchFailed))
    case Response(ok, body) =>
      if !ok then s.(isLoading := false, error := Some(NotOk))
      else
        match body
        case None => s.(isLoading := false, error := Some(NotJson))
        case Some(data) =>
          match Normalize(data)
          case Err(e) => s.(isLoading := false, error := Some(NormaliseFailed(e)))
          case Ok(list) => s.(statuses := list, isLoading := false)
  }

  /** The request succeeded at every stage: the fetch resolved, the response
      was ok, its body was JSON, and the coercion did not throw. */
  predicate Succeeded(outcome: FetchOutcome) {
    outcome.Response? && outcome.ok && outcome.body.Some? && Normalize(outcome.body.value).Ok?
  }

  /** From the initial state, a request that succeeded ends with the coerced
      statuses and no error; one that failed at any stage ends with an error
      and no statuses. Loading is over either way. */
  lemma LoadEndsInOneOfTwoStates(outcome: FetchOutcome)
    ensures var r := LoadFeed(InitialFeed, outcome);
            && !r.isLoading
            && (r.error.None? <==> Succeeded(outcome))
            && (Succeeded(outcome) ==> r.statuses == Normalize(outcome.body.value).value)
            && (!Succeeded(outcome) ==> r.error.Some? && r.statuses == [])
  {
  }

  /** A null body ends in the error state with no statuses, like a failed
      request. */
  lemma NullBodyIsAnError()
    ensures LoadFeed(InitialFeed, Response(true, Some(Null))) ==
            FeedState([], false, Some(NormaliseFailed(TypeError)))
  {
  }
}

=== FILE: status_list.dfy ===
/**
 * The status table the pages fetch from `/StatusList`, and the
 * `statusList.find(s => s.StatusID === status)` lookup they share.
 */
module StatusList {
  import opened Results
  import opened JsValues

  /** One row of the status table: its StatusID, StatusName and AltName
      columns (undefined when the row lacks one). */
  datatype StatusEntry = StatusEntry(statusId: JsValue, statusName: JsValue, altName: JsValue)

  /** Entry i is the first whose StatusID is `=== status`. */
  predicate FirstMatch(list: seq<StatusEntry>, status: JsValue, i: int) {
    0 <= i < |list|
    && StrictEquals(list[i].statusId, status)
    && forall j :: 0 <= j < i ==> !StrictEquals(list[j].statusId, status)
  }

  predicate NoMatch(list: seq<StatusEntry>, status: JsValue) {
    forall j :: 0 <= j < |list| ==> !StrictEquals(list[j].statusId, status)
  }

  /** `list.find(s => s.StatusID === status)`, as the index of the entry it
      returns; `None` when it returns undefined. */
  function FindStatus(list: seq<StatusEntry>, status: JsValue): (r: Option<nat>)
    ensures r.Some? <==> !NoMatch(list, status)
    ensures r.Some? ==> FirstMatch(list, status, r.value)
  {
    if |list| == 0 then None
    else if StrictEquals(list[0].statusId, status) then Some(0)
    else
      match FindStatus(list[1..], status)
      case Some(i) => Some(i + 1)
      case None => None
  }

  /** The first match is unique, so any first match is what `find` returns. */
  lemma FirstMatchUnique(list: seq<StatusEntry>, status: JsValue, i: int)
    requires FirstMatch(list, status, i)
    ensures FindStatus(list, status) == Some(i)
  {
  }
}

=== FILE: text.dfy ===
/**
 * The two string operations the search box relies on:
 * `toLowerCase()` and `includes(needle)`.
 */
module Text {

  /** Case mapping of one character: A-Z become a-z, everything else (Thai
      has no case) is unchanged. */
  function LowerChar(c: char): char {
    if 'A' <= c <= 'Z' then (c as int + 32) as char else c
  }

  /** `s.toLowerCase()` */
  function ToLower(s: string): (r: string)
    ensures |r| == |s|
    ensures forall i :: 0 <= i < |s| ==> r[i] == LowerChar(s[i])
  {
    if |s| == 0 then "" else [LowerChar(s[0])] + ToLower(s[1..])
  }

  /** A text without capital letters is its own lower case. */
  lemma LowerTextUnchanged(s: string)
    requires forall i :: 0 <= i < |s| ==> !('A' <= s[i] <= 'Z')
    ensures ToLower(s) == s
  {
  }

  /** needle occurs in hay starting at index i. */
  predicate OccursAt(hay: string, needle: string, i: int) {
    0 <= i && i + |needle| <= |hay| && hay[i..i + |needle|] == needle
  }

  /** `hay.includes(needle)`: some window of hay spells needle. */
  function Includes(hay: string, needle: string): (b: bool)
    ensures b <==> exists i :: OccursAt(hay, needle, i)
    decreases |hay|
  {
    if needle <= hay then
      assert OccursAt(hay, needle, 0);
      true
    else if |hay| == 0 then
      false
    else
      OccursAfterFirst(hay, needle);
      Includes(hay[1..], needle)
  }

  /** When hay does not start with needle, needle occurs in hay exactly when
      it occurs in hay without its first character. */
  lemma OccursAfterFirst(hay: string, needle: string)
    requires |hay| > 0 && !(needle <= hay)
    ensures (exists i :: OccursAt(hay, needle, i)) <==> (exists i :: OccursAt(hay[1..], needle, i))
  {
    if exists i :: OccursAt(hay, needle, i) {
      var i :| OccursAt(hay, needle, i);
      assert i != 0;
      assert hay[1..][i - 1..i - 1 + |needle|] == hay[i..i + |needle|];
      assert OccursAt(hay[1..], needle, i - 1);
    }
    if exists i :: OccursAt(hay[1..], needle, i) {
      var i :| OccursAt(hay[1..], needle, i);
      assert hay[1..][i..i + |needle|] == hay[i + 1..i + 1 + |needle|];
      assert OccursAt(hay, needle, i + 1);
    }
  }

  /** The empty text occurs in every text. */
  lemma EmptyIncluded(hay: string)
    ensures Includes(hay, "")
  {
    assert OccursAt(hay, "", 0);
  }

  /** A needle whose first character does not occur in hay is not included. */
  lemma MissingFirstCharNotIncluded(hay: string, needle: string)
    requires |needle| > 0
    requires forall i :: 0 <= i < |hay| ==> hay[i] != needle[0]
    ensures !Includes(hay, needle)
  {
    forall i | 0 <= i && i + |needle| <= |hay|
      ensures !OccursAt(hay, needle, i)
    {
      assert hay[i..i + |needle|][0] == hay[i];
    }
  }
}
